=== FILE: README.md ===
# dropzone47 download core in Dafny

dropzone47 is a Telegram bot. A user sends a link, picks "video" or
"audio" from a keyboard, and the bot fetches the media with yt-dlp and
sends the files back as Telegram messages. This project models the core
of that flow:

- the helpers of `dropzone47/download.py`:
  - the format selector;
  - the output listing;
  - the file picker;
  - the guarded cleanup;
  - the option builder;
  - the throttled progress hook;
  - the exception mapping of the fetch.
- `humanize_duration` and `has_enough_space` of `dropzone47/utils.py`.
- The handlers of `dropzone47/bot.py`:
  - `send_files`;
  - `download_and_send_task`, with its preflight space check, one pass per kind, at most one reduced-quality retry, terminal status, and `finally` cleanup with session deletion;
  - `handle_choice`, `cmd_cancel` and `cmd_clear_downloads`.
- The legacy single-file bot `main.py`, wherever it differs:
  - the Spanish "unknown";
  - the "both" choice;
  - the process termination in the cancel handler.

Everything outside the bot is a parameter of the model (the `Env` datatype of `Orchestrator`):

- the disk-usage probe;
- the engine, i.e. what the progress hook sees, how the awaited call ends and which files it leaves;
- file sizes;
- Telegram sends;
- the removals that fail.

The registry `user_downloads` is a `map` from user id to a task record. Every handler is a pure function from the old map to the new one.

Modules, in dependency order:

- `Wrappers`: `Option`.
- `Text`:
  - ASCII lower-casing;
  - suffix and infix tests;
  - decimal rendering and parsing;
  - Python's string order.
- `Settings`: the configuration constants and the two derived thresholds.
- `Selection`:
  - `pick_files_for_choice`;
  - `build_format_string`;
  - `find_output_files` as a sort.
- `Utils`: `humanize_duration`, `has_enough_space`.
- `Progress`:
  - the hook as a state machine over its throttle state;
  - runs of the hook;
  - the exception mapping.
- `Storage`: the download directory and removal.
- `Registry`:
  - task records;
  - the session store;
  - `handle_choice`, `cmd_cancel`, `cmd_clear_downloads`.
- `Delivery`: `send_files`.
- `Orchestrator`: `download_and_send_task`.

## Model

| member | source | states |
|---|---|---|
| Selection.Filter | dropzone47/download.py:38 | The list comprehension keeps exactly the elements satisfying the test, each as often as in the input and in input order. |
| Selection.PickFilesForChoice | dropzone47/download.py:36-44 | The result keeps the input order. "audio" keeps exactly the `.mp3` paths, case-insensitively. "video" keeps exactly the `.mp4` paths if there is one, otherwise exactly the `.mkv/.webm/.mov` ones, and never mixes the two groups or includes an mp3. Any other choice gives nothing. |
| Selection.LegacyPickFilesForChoice | main.py:128-140 | Agrees with the dropzone47 picker on "audio" and "video". Any other choice ("both") gives the first mp4 followed by the first mp3, at most two paths, each from the input. |
| Selection.FilterHead | main.py:138-140 | Taking `[:1]` of a filtered list is the first matching element, or nothing when none matches. |
| Selection.ExtensionsExclusive | dropzone47/download.py:37-43 | No path is both mp3 and video, or both mp4 and a fallback container, so the pickers' groups are disjoint. |
| Selection.BuildFormatString | dropzone47/download.py:25-28 | Audio asks for "bestaudio/best". Anything else asks for best video at or below the height cap, merged with best audio, falling back to a capped single file. Every selector ends in the unrestricted "/best". |
| Selection.FormatExamples | tests/test_utils.py:18-22 | Audio at 720 gives "bestaudio/best". Video at 480 contains "bestvideo[height<=480]" and "+bestaudio". |
| Selection.PickExamples | tests/test_utils.py:24-33 | On a listing with an mp4, a webm, an mp3 and a text file: audio picks the mp3, video picks the mp4, and an unknown choice picks nothing. |
| Selection.FindOutputFiles | dropzone47/download.py:31-33 | The listing comes back sorted in Python's string order, as a permutation of the files found. |
| Selection.FindOutputFilesDeterministic | dropzone47/download.py:33 | The listing does not depend on directory order: two listings of the same files sort to the same sequence. |
| Selection.SortedUnique | dropzone47/download.py:33 | Two sorted permutations of one multiset are equal. `sorted` has one possible answer. |
| Text.LexLeTotal | dropzone47/download.py:33 | Python's string order is total, so `sorted` can compare any two paths. |
| Text.LexLeTransitive | dropzone47/download.py:33 | Python's string order is transitive. |
| Text.IntToStringRoundTrip | dropzone47/download.py:81 | `str` of an integer parses back to the same integer, so the quality string carries the configured bitrate. |
| Text.NatToStringParse | dropzone47/utils.py:21-23 | A digit string without a superfluous leading zero is the decimal rendering of the number it parses to. |
| Settings.MinFreeMb | dropzone47/bot.py:157 | The free space demanded before any fetch is `max(2 * TELEGRAM_MAX_MB, 2000)` MB: at least both bounds, and equal to one of them. |
| Settings.RetryHeight | dropzone47/bot.py:180 | The retry's height cap is `min(480, MAX_HEIGHT)`: at most both bounds, and equal to one of them. |
| Utils.Pad2 | dropzone47/utils.py:22-23 | `f"{i:02d}"`: a number from 0 to 9 gets exactly one leading zero, and only then does a two-character result start with '0'. Every non-negative number reads back as itself. A negative number keeps its sign in front of the digits of its magnitude. |
| Utils.HumanizeDuration | dropzone47/utils.py:12-23 | None gives "unknown". Under an hour the result is "MM:SS" (five characters, colon third). From an hour up it is "H…H:MM:SS". A negative count starts with '-'. |
| Utils.HumanizeDurationRoundTrip | dropzone47/utils.py:19-23 | Reading the rendered clock back gives the original number of seconds, for every non-negative count. The reader accepts only two-digit minute and second fields below 60 and an hour field of at least two digits, without a leading zero beyond `02d`'s padding, and at least 1. |
| Utils.HumanizeDurationCanonical | dropzone47/utils.py:19-23 | For every non-negative count, the rendered clock is the one string the reader maps back to that count: "01:05" and not "00:65" for 65, "01:00:05" and not "00:60:05" or "001:00:05" for 3605. |
| Utils.HumanizeDurationExamples | tests/test_utils.py:8-11 | None gives "unknown", 65 gives "01:05", 3605 gives "01:00:05". The legacy copy says "desconocida". |
| Utils.LegacyHumanizeDuration | main.py:88-99 | The legacy copy differs only in the text for an unknown duration. |
| Utils.HasEnoughSpace | dropzone47/utils.py:26-31 | True exactly when the free bytes reach the threshold in MiB. A missing download directory counts as enough. Any other probe failure propagates (None). |
| Utils.HasEnoughSpaceMonotone | dropzone47/utils.py:29 | Passing a higher threshold implies passing every lower one. |
| Progress.EventTotal | dropzone47/download.py:97 | `total_bytes or total_bytes_estimate or 0`: the exact total when it is present and non-zero, otherwise the estimate when that is present and non-zero, and 0 exactly when neither is. |
| Progress.Percent | dropzone47/download.py:96-98 | No percentage exactly when the total is zero. Otherwise the value is the quotient truncated toward zero: `r*total <= downloaded*100 < (r+1)*total`. It is at least 100 once the download reaches the total. |
| Progress.TruncDiv | dropzone47/download.py:98 | `int(a / b)` rounds toward zero: down for non-negative `a`, up for negative `a`. |
| Progress.HookStep | dropzone47/download.py:90-113 | Raises exactly when the cancel flag is set. On a download event any post is the percentage itself. A known percentage is posted exactly when it is 5 points above the last one posted or more than 2 seconds have passed, and only then does the throttle state move to that point. "finished" posts the processing notice. Every other status does nothing. |
| Progress.RunHook | dropzone47/download.py:87-115 | A run of the hook raises exactly when one of its calls sees the cancel flag. |
| Progress.RunHookSpaced | dropzone47/download.py:102-104 | Between two posted percentages, the second is at least 5 points higher or more than 2 seconds later. |
| Progress.RunHookStopsAtCancel | dropzone47/download.py:92-93 | Nothing after the first cancelled call is posted. The run's notices are those of the calls before it. |
| Progress.RunHookMonotone | dropzone47/download.py:102-104 | When the engine reports non-decreasing percentages, the posted ones are non-decreasing too. |
| Progress.FirstCancel | dropzone47/download.py:92-93 | The first call that sees the cancel flag, with no earlier one seeing it. |
| Progress.OrElse | dropzone47/download.py:96-97 | Python's `x or d` on a possibly missing count: the value unless it is missing or zero. |
| Progress.MapEngineEnd | dropzone47/download.py:136-141 | A cancelled await, or an exception whose text is exactly "cancelled", becomes a cancellation. Any other exception propagates with its text. A normal return fetches. |
| Progress.DownloadWithProgress | dropzone47/download.py:118-141 | The notices are those of the hook's run. A cancel flag seen by the hook cancels the fetch. Otherwise the engine's ending is mapped as above. |
| Storage.RemoveAll | dropzone47/download.py:50-54 | Exactly the targeted paths whose removal does not raise leave the disk, in order. Everything else stays. |
| Storage.SafeCleanup | dropzone47/download.py:47-54 | With cleanup disabled nothing changes. With it enabled the paths are removed as above. |
| Storage.AddFiles | dropzone47/download.py:31-33 | Files the engine writes join the directory. A path written again is listed once, so a listing without repeats stays without repeats, and nothing already there leaves. |
| Storage.NoDupAppend | dropzone47/bot.py:188 | Joining two lists without repeats and with no path in common gives a list without repeats. |
| Storage.SafeCleanupShrinks | dropzone47/download.py:47-54 | A cleanup never adds a file. |
| Storage.RemoveCounting | dropzone47/bot.py:342-348 | The removal loop counts one per successful removal. What is left is exactly the failed paths in order, and the count plus what is left is the number found. |
| Registry.ResolveSession | dropzone47/bot.py:257-261 | The cached session wins. The durable store is used only when the cache has none, and the lookup fails only when both lack the user. |
| Registry.DeleteSession | dropzone47/session.py:32-38 | Removes the user's durable session and nobody else's. The cache is untouched. |
| Registry.DeleteSessionKeepsCached | dropzone47/session.py:32-38 | After deletion the session still resolves from the cache when it was cached, and resolves to nothing otherwise. Other users resolve as before. |
| Registry.HandleChoice | dropzone47/bot.py:250-287 | With no session the reply is "not found". A user with a queued, downloading or sending record is refused. A task is queued exactly when a session exists, the user is not busy and there is a message. The new record is fresh (queued, no files, no cancel) and built from the session. Other users' records never change. |
| Registry.HandleChoiceConflict | dropzone47/bot.py:263-266 | Right after a queued selection, the same user's next one is refused and changes nothing. Another user's reply is the same as before. |
| Registry.CmdCancel | dropzone47/bot.py:311-326 | A cancel is requested exactly when the record is active. Only the cancel flag and the unfinished task handle change. The map's keys and the other records stay. |
| Registry.LegacyCmdCancel | main.py:564-585 | The dropzone47 handler plus a terminate of the recorded process, whose failure leaves it as it was. |
| Registry.LegacyCancelAgrees | main.py:576-581 | With no recorded process the two cancel handlers agree. |
| Registry.CancelAfterChoice | dropzone47/bot.py:319-325 | A freshly queued task can always be cancelled. Its handle is marked cancelled and the record stays active until the task ends it. |
| Registry.ClearDownloads | dropzone47/bot.py:329-350 | With no record nothing happens. Otherwise the record's file list is emptied. With no content id nothing is removed. Otherwise the listing's removable files are removed, the reply counts them, and the count plus what is left is the number found. |
| Delivery.VideoSuffixesSplit | dropzone47/bot.py:44 | A path ends in one of the four containers `send_files` sends as video exactly when it is an mp4 or one of the fallback containers the picker accepts. |
| Delivery.DispatchKind | dropzone47/bot.py:34-58 | A path goes out as audio exactly when it ends in `.mp3`. It goes as video exactly when it ends in a video container, and as a document otherwise. |
| Delivery.PickedFilesDispatch | dropzone47/bot.py:37-44 | Every audio pick is sent as audio and every video pick as video. |
| Delivery.SendFiles | dropzone47/bot.py:34-58 | Files are attempted in order, each under its extension's kind, and recorded as sent exactly when delivery succeeds. A failed send does not stop the loop. Only a cancellation does, and then the next file's send was the one cancelled. |
| Orchestrator.Passes | dropzone47/bot.py:161-193 | dropzone47 runs the video pass for "video" and the audio pass for "audio". The legacy bot also runs both, video first, for "both". |
| Orchestrator.BuildYdlOptions | dropzone47/download.py:57-84 | Audio asks for the audio selector, no mp4 merging, and an mp3 extraction whose quality string parses to the configured bitrate. Video asks for a selector capped at the given height, with mp4 merging and no extraction. |
| Orchestrator.RetryHeightFor | dropzone47/bot.py:177-185 | The video retry is capped at `min(480, MAX_HEIGHT)`: at most both, and equal to one of them. The audio retry asks for MAX_HEIGHT again. |
| Orchestrator.KindsDisjoint | dropzone47/download.py:37-43 | No path is of two different kinds, so the passes of one run pick disjoint files. |
| Orchestrator.AudioRetryUnchanged | dropzone47/bot.py:212-224 | The audio retry sends the engine exactly the options of the first request. Setting the bitrate in the environment changes nothing, because the quality was read at import time. |
| Orchestrator.Fetch | dropzone47/download.py:118-141 | One fetch records its invocation and the hook's notices. The directory afterwards holds exactly what it held plus what the engine wrote, each path listed once when it was before. It is cancelled exactly when the hook saw the cancel flag or the engine's ending maps to a cancellation. It succeeds exactly when neither happens and the engine returned. Any other failure carries the engine's message. |
| Orchestrator.Selected | dropzone47/bot.py:170 | `pick_files_for_choice(find_output_files(vid_id), kind)`, as at bot.py lines 170, 185, 202 and 225. The selection is sorted and holds exactly the wanted files of the directory, each as often as listed. Wanted means: mp3 for audio; for video the mp4s, or the other containers when the directory has no mp4. |
| Orchestrator.PickedWanted | dropzone47/download.py:31-44 | The picker on the sorted listing keeps exactly the wanted files of the directory, sorted, each of the pass's kind and without repeats when the directory has none. |
| Selection.SubseqSorted | dropzone47/download.py:33-38 | Deleting elements from a sorted listing keeps it sorted, so every pick comes out in sorted order. |
| Orchestrator.Degrade | dropzone47/bot.py:174-176 | The "too large" warning is recorded. With cleanup disabled the directory is unchanged. With it enabled each picked file whose removal works is gone. Every other file stays, and nothing else in the run changes. |
| Orchestrator.AnyTooBig | dropzone47/bot.py:173 | `any()` stops at the first file that does not fit. "Not too big" exactly when every picked file's size is known and within the cap. "Too big" when the first file that does not fit is known to exceed the cap, even if a later size cannot be read. The check fails when the first file that does not fit has a size that cannot be read. |
| Orchestrator.Deliver | dropzone47/bot.py:188-191 | The picked files are appended to the record, the status becomes "sending" and the files are sent. Only a cancelled send faults. |
| Orchestrator.SendSelection | dropzone47/bot.py:188-191 | Recording a selection is one step of its pass. The selection is appended to the record and the status becomes "sending". The send records of exactly these files are appended to what was sent. The pass faults only when a send was cancelled. |
| Orchestrator.RunPass | dropzone47/bot.py:161-191 | A failed first request ends the pass as it ended. An empty first selection is "file not found". An unreadable size fails. A selection that fits is recorded as picked, with a single request. Its files are then sent, and the pass faults only when a send was cancelled. The second, reduced request and its "too large" warning happen exactly when the first selection holds an oversized file. Recorded files are of the pass's kind and in the directory, and the status moves to "sending" exactly when files are recorded. Every file sent is one the pass recorded. The bot removes only files of the pass's kind, and none with cleanup disabled. |
| Orchestrator.AfterPrimary | dropzone47/bot.py:169-191 | From the first listing: empty is "file not found", an unreadable size fails, a fitting selection is recorded as it is and sent (faulting only on a cancelled send), and the retry with its warning happens exactly when the selection holds an oversized file. |
| Orchestrator.AfterDegrade | dropzone47/bot.py:178-191 | After the warning and the cleanup, the reduced request is made once. A fault of it ends the pass. An empty selection is the retry's "file not found". Otherwise the retry's selection is recorded, the status becomes "sending" and exactly that selection is sent. The pass then faults only when a send was cancelled. |
| Orchestrator.RetryNotRechecked | dropzone47/bot.py:186-191 | After the retry, a non-empty selection is recorded and sent even if it is still over the cap. The send records of exactly that selection are appended to what was sent. The pass faults only when a send was cancelled, never with an oversize or a missing file. |
| Orchestrator.OversizedKeptWithoutCleanup | dropzone47/download.py:48-49 | With cleanup disabled the oversized first selection stays on disk through the retry. |
| Orchestrator.RunPasses | dropzone47/bot.py:161-231 | Each pass asks the engine once or twice, and a faulted run asked at least once. A complete run asks at least once per pass and adds one "sending" per pass. Every recorded file is of some pass's kind and in the directory, and no file is recorded twice when the directory lists each path once. |
| Orchestrator.RunPassesInOrder | dropzone47/bot.py:161-231 | The run's requests follow the pass list: each is for one of the passes, and no request of a later pass comes before a request of an earlier pass. |
| Orchestrator.RunPassesFirstRequest | dropzone47/bot.py:161-168 | The run's first request is the first pass's first request. |
| Orchestrator.RunPassesAppend | dropzone47/bot.py:161-231 | Running the passes `a + b` is running `a`, then `b` from where `a` left off, but only if `a` raised nothing. An exception in `a` ends the run exactly as `a` ended, so `b` makes no request. |
| Orchestrator.TryBody | dropzone47/bot.py:157-231 | The engine is asked for nothing unless the space check passed. A failed or unreadable check is an error. |
| Orchestrator.TerminalStatus | dropzone47/bot.py:233-242 | A completed body ends "done", a cancellation ends "canceled" and any other exception ends "error". None of them is active. |
| Orchestrator.FinalCleanup | dropzone47/bot.py:244-246 | With cleanup enabled every recorded file whose removal works is gone. Every file that was not recorded stays, and so does every recorded file whose removal fails. With cleanup disabled the disk is untouched. Only the disk changes. |
| Orchestrator.RunTask | dropzone47/bot.py:152-247 | The statuses read "downloading", then one "sending" per recorded pass, then the final status. The preflight rule and the bound of two invocations per pass hold. The recorded files grow only by files of the choice's kinds that were in the directory before the `finally` cleanup, none recorded twice when the directory lists each path once. Every file sent is one this run recorded. Compared with the directory the passes left, the cleanup removes exactly the recorded files whose removal works when cleanup is enabled, and nothing when it is disabled. When cleanup is disabled the bot itself removes nothing. |
| Orchestrator.Orchestrate | dropzone47/bot.py:114-247 | The user's record ends in "done", "canceled" or "error", with its task handle finished. The durable session is deleted on every path while the cache keeps it. Only that user's record changes. |
| Orchestrator.SetdefaultTask | dropzone47/bot.py:125-139 | The task reuses the record `handle_choice` stored, or makes a fresh queued one. |
| Orchestrator.CancelFlagCancels | dropzone47/bot.py:236-238 | A cancel flag seen by the first request's progress hook ends the run "canceled", with no further request. |
| Orchestrator.LegacyBothNoRollback | main.py:286-431 | In the legacy "both", a failing audio pass ends the run in "error", but what the video pass recorded and sent stays recorded and sent. |
| Orchestrator.ChoiceAfterRun | dropzone47/bot.py:244-247 | After a run the user is no longer busy. Because the cache survives `delete_session`, the next selection from the same keyboard is queued again. |
| Orchestrator.ChoiceThenRun | dropzone47/bot.py:272-286 | The task drives the record `handle_choice` stored. That record starts with no files, so every file it ends with is of one of the choice's kinds and was in the directory after the passes, none twice. It ends in a final status with its handle finished. |

## Session deletion

A reader of the `finally` block might expect `delete_session` to make the session single-use. `delete_session` (dropzone47/session.py:32-38) removes only the durable shelve copy. The in-memory `user_sessions` cache keeps the entry, and `handle_choice` consults the cache first. The model follows the code: `Registry.DeleteSession` keeps the cache, and `Orchestrator.ChoiceAfterRun` shows that a second selection after a finished run is accepted.

## Left out

- Telegram I/O is not modelled: editing the caption, replies, and the "too large" warning text. The warning is recorded as an event. `edit_caption` (dropzone47/bot.py:141-150) swallows its own failures and those of its fallback, so those never matter. Two unguarded calls could raise and end the run in "error": the "too large" `send_message` (dropzone47/bot.py:175 and 207-209) and the error reply in `send_files` (dropzone47/bot.py:58). The model does not cover their failure.
- Progress.HookStep: timestamps are integer seconds, and `downloaded * 100 / total` is divided exactly. Floating-point rounding of `time.time()` and of that division is not modelled.
- Progress.HookStep: the speed and ETA text, `sizeof_fmt`, and the task's `updated_at` stamps are left out. They carry no decision.
- Orchestrator.Fetch: the engine is an oracle. yt-dlp itself, the output template, and the hook's exception are not modelled. The model assumes the engine passes the hook's `RuntimeError("cancelled")` through with its text intact, and only `str(e)` is compared.
- Orchestrator.Fetch: the engine stand-in only writes files. yt-dlp's post-processors delete their inputs (the merged streams, the audio before mp3 extraction), and the model does not let the engine remove anything. So "with cleanup disabled no file leaves the directory" is a statement about the bot's own removals only.
- Storage: glob matching is not modelled. The disk is the listing of files whose names match the content id's pattern.
- Orchestrator.AudioRetryUnchanged: the `os.environ` bitrate tweak of the audio retry is modelled only by its absence of effect. It never reaches the options.
- Concurrency is not modelled. Each handler and the task run atomically. A `/clear` or a new choice interleaved with the task's awaits is not covered. Neither is the `finally` block reading a record replaced meanwhile, nor a cancel that lands before the task starts running.
- Utils.HumanizeDuration: a value that `int()` rejects (rendered with `str`) is not modelled. The input is an optional integer.
- Text.Lower: only ASCII letters are folded. Python's full Unicode `lower()` is not modelled.
- Session persistence is not modelled: shelve failures, which are swallowed, and `load_session` exceptions. `handle_url`, `/start`, `/downloads` and configuration parsing are outside the core.
- Registry.LegacyCmdCancel: no handler ever stores a `process`. The terminate branch is modelled with an oracle for completeness.
- Orchestrator.Passes: a dropzone47 choice other than "audio" or "video" runs no pass and ends "done". The model keeps that behaviour of the code.
- Orchestrator.RunPasses: in the legacy "both", the status stays "sending" while the audio pass downloads. It is not reset to "downloading", and the model keeps that too.

=== FILE: delivery.dfy ===
/** `send_files` of dropzone47/bot.py (and its copy in main.py): each path is
    sent as audio, video or document according to its extension; a failed
    send is reported and the loop goes on. The Telegram call is an oracle
    `deliver`. */
module Delivery {
  import opened Text
  import opened Selection

  /** Which Telegram call a file goes through. */
  datatype SendKind = AsAudio | AsVideo | AsDocument

  /** The extensions `send_files` sends as video. */
  const VideoSuffixes: seq<string> := [".mp4", ".mkv", ".webm", ".mov"]

  /** The container tuple is the preferred container plus the fallback ones. */
  lemma VideoSuffixesSplit(p: string)
    ensures EndsWithAny(Lower(p), VideoSuffixes) <==> IsMp4(p) || IsFallbackVideo(p)
  {
    var l := Lower(p);
    var fallback := [".mkv", ".webm", ".mov"];
    assert VideoSuffixes == [".mp4"] + fallback;
    if EndsWithAny(l, VideoSuffixes) {
      var k :| 0 <= k < |VideoSuffixes| && EndsWith(l, VideoSuffixes[k]);
      if k > 0 {
        assert VideoSuffixes[k] == fallback[k - 1];
      }
    }
    if IsFallbackVideo(p) {
      var k :| 0 <= k < |fallback| && EndsWith(l, fallback[k]);
      assert VideoSuffixes[k + 1] == fallback[k];
    }
    if IsMp4(p) {
      assert EndsWith(l, VideoSuffixes[0]);
    }
  }

  /** The `if/elif/else` on the lower-cased path. */
  function DispatchKind(path: string): (k: SendKind)
    ensures k == AsAudio <==> IsMp3(path)
    ensures k == AsVideo <==> !IsMp3(path) && (IsMp4(path) || IsFallbackVideo(path))
    ensures k == AsDocument <==> !IsMp3(path) && !IsMp4(path) && !IsFallbackVideo(path)
  {
    VideoSuffixesSplit(path);
    if EndsWith(Lower(path), ".mp3") then AsAudio
    else if EndsWithAny(Lower(path), VideoSuffixes) then AsVideo
    else AsDocument
  }

  /** What the downloader picks reaches the user under the matching kind:
      every audio pick goes out as audio, every video pick as video. */
  lemma PickedFilesDispatch(files: seq<string>, choice: string)
    ensures choice == "audio" ==>
      forall i :: 0 <= i < |PickFilesForChoice(files, choice)| ==> DispatchKind(PickFilesForChoice(files, choice)[i]) == AsAudio
    ensures choice == "video" ==>
      forall i :: 0 <= i < |PickFilesForChoice(files, choice)| ==> DispatchKind(PickFilesForChoice(files, choice)[i]) == AsVideo
  {
    var r := PickFilesForChoice(files, choice);
    if choice == "audio" || choice == "video" {
      forall i | 0 <= i < |r|
        ensures choice == "audio" ==> IsMp3(r[i])
        ensures choice == "video" ==> IsMp4(r[i]) || IsFallbackVideo(r[i])
      {
        assert multiset(r)[r[i]] > 0;
      }
    }
  }

  /** How one send ended. A cancellation is not an `Exception` and is not
      caught by the per-file handler. */
  datatype DeliveryOutcome = Delivered | DeliveryFailed(reason: string) | DeliveryCancelled

  /** One attempted send that ran to an end the loop handles. */
  datatype SendRecord = SendRecord(path: string, kind: SendKind, ok: bool)

  /** The attempts, and whether a cancellation stopped the loop. */
  datatype SendReport = SendReport(records: seq<SendRecord>, interrupted: bool)

  predicate SendCancelled(files: seq<string>, deliver: (string, SendKind) -> DeliveryOutcome, i: int)
    requires 0 <= i < |files|
  {
    deliver(files[i], DispatchKind(files[i])).DeliveryCancelled?
  }

  /** `send_files(chat_id, context, title, files)`. */
  function SendFiles(files: seq<string>, deliver: (string, SendKind) -> DeliveryOutcome): (r: SendReport)
    ensures |r.records| <= |files|
    // every attempt is the next file, sent under its extension's kind
    ensures forall i :: 0 <= i < |r.records| ==>
      && r.records[i].path == files[i]
      && r.records[i].kind == DispatchKind(files[i])
      && (r.records[i].ok <==> deliver(files[i], DispatchKind(files[i])) == Delivered)
      && !SendCancelled(files, deliver, i)
    // a failed send does not stop the loop; only a cancellation does
    ensures !r.interrupted <==> |r.records| == |files|
    ensures r.interrupted ==> SendCancelled(files, deliver, |r.records|)
    decreases |files|
  {
    if |files| == 0 then SendReport([], false)
    else
      var kind := DispatchKind(files[0]);
      match deliver(files[0], kind)
      case DeliveryCancelled => SendReport([], true)
      case outcome =>
        var rest := SendFiles(files[1..], deliver);
        assert forall i :: 0 <= i < |files| - 1 ==> files[1..][i] == files[i + 1];
        SendReport([SendRecord(files[0], kind, outcome == Delivered)] + rest.records, rest.interrupted)
  }
}

=== FILE: orchestrator.dfy ===
/** `download_and_send_task` of dropzone47/bot.py and its two-pass copy in
    main.py: the preflight space rule, one pass per requested kind (fetch,
    pick, size check, at most one reduced-quality retry, record, send), the
    terminal status, and the `finally` cleanup with session deletion.

    Everything outside the bot is an oracle in `Env`: the disk probe, the
    engine (what the progress hook sees, how the download ends and which
    files it leaves), the file sizes, the Telegram sends and the removals
    that fail. */
module Orchestrator {
  import opened Wrappers
  import opened Text
  import opened Settings
  import opened Selection
  import opened Utils
  import opened Progress
  import opened Storage
  import opened Registry
  import opened Delivery

  // ---------------------------------------------------------------------
  // Passes and engine invocations
  // ---------------------------------------------------------------------

  /** The dropzone47 package (bot.py) or the legacy single file (main.py). */
  datatype Variant = Package | Legacy

  datatype Kind = VideoKind | AudioKind

  /** The choice string a pass hands to the selector and the option builder. */
  function KindChoice(k: Kind): string {
    if k.VideoKind? then "video" else "audio"
  }

  /** The file a pass keeps is one its selector accepts. */
  predicate KindMatches(k: Kind, path: string) {
    if k.VideoKind? then IsMp4(path) || IsFallbackVideo(path) else IsMp3(path)
  }

  /** A path matches at most one kind. */
  lemma KindsDisjoint(k1: Kind, k2: Kind, path: string)
    requires k1 != k2 && KindMatches(k1, path)
    ensures !KindMatches(k2, path)
  {
    ExtensionsExclusive(path);
  }

  /** No kind is run twice. */
  predicate DistinctKinds(passes: seq<Kind>) {
    forall i, j :: 0 <= i < j < |passes| ==> passes[i] != passes[j]
  }

  /** Which passes a choice runs, in order. dropzone47/bot.py tests
      `choice == "video"` and then `choice == "audio"`; main.py tests
      membership in {"video", "both"} and then in {"audio", "both"}. */
  function Passes(variant: Variant, choice: string): (r: seq<Kind>)
    ensures |r| <= 2
    ensures VideoKind in r <==> choice == "video" || (variant == Legacy && choice == "both")
    ensures AudioKind in r <==> choice == "audio" || (variant == Legacy && choice == "both")
    ensures |r| == 2 ==> r == [VideoKind, AudioKind]
    ensures DistinctKinds(r)
  {
    var video := choice == "video" || (variant == Legacy && choice == "both");
    var audio := choice == "audio" || (variant == Legacy && choice == "both");
    (if video then [VideoKind] else []) + (if audio then [AudioKind] else [])
  }

  /** The part of `build_ydl_progress_opts` that depends on the request:
      the format selector, mp4 merging for video, and the mp3 extraction
      post-processor with its quality for audio. */
  datatype YdlOptions = YdlOptions(format: string, mergeMp4: bool, preferredQuality: Option<string>)

  /** `build_ydl_progress_opts(choice, max_height=...)`. The quality is the
      import-time AUDIO_KBITRATE, whatever the environment says later. */
  function BuildYdlOptions(cfg: Config, kind: Kind, maxHeight: int): (o: YdlOptions)
    ensures kind == AudioKind ==> o.format == "bestaudio/best"
    ensures kind == VideoKind ==> Contains(o.format, "bestvideo[height<=" + IntToString(maxHeight) + "]")
    ensures o.mergeMp4 <==> kind == VideoKind
    ensures o.preferredQuality.Some? <==> kind == AudioKind
    ensures kind == AudioKind ==> ParseInt(o.preferredQuality.value) == Some(cfg.audioKbitrate)
  {
    IntToStringRoundTrip(cfg.audioKbitrate);
    YdlOptions(
      BuildFormatString(KindChoice(kind), maxHeight),
      kind == VideoKind,
      if kind == AudioKind then Some(IntToString(cfg.audioKbitrate)) else None)
  }

  /** One call of `ytdlp_download_with_progress`. */
  datatype Invocation = Invocation(kind: Kind, maxHeight: int, retry: bool, options: YdlOptions)

  /** The height cap of the retry: `min(480, MAX_HEIGHT)` for video; the
      audio retry passes `max_height=MAX_HEIGHT` again. */
  function RetryHeightFor(cfg: Config, kind: Kind): (h: int)
    ensures kind == VideoKind ==> h <= 480 && h <= cfg.maxHeight && (h == 480 || h == cfg.maxHeight)
    ensures kind == AudioKind ==> h == cfg.maxHeight
  {
    if kind == VideoKind then RetryHeight(cfg) else cfg.maxHeight
  }

  function PrimaryInvocation(cfg: Config, kind: Kind): Invocation {
    Invocation(kind, cfg.maxHeight, false, BuildYdlOptions(cfg, kind, cfg.maxHeight))
  }

  function RetryInvocation(cfg: Config, kind: Kind): Invocation {
    Invocation(kind, RetryHeightFor(cfg, kind), true, BuildYdlOptions(cfg, kind, RetryHeightFor(cfg, kind)))
  }

  /** The audio retry asks the engine for exactly what the first attempt
      asked for: the bitrate set in the environment is never read. */
  lemma AudioRetryUnchanged(cfg: Config)
    ensures RetryInvocation(cfg, AudioKind).options == PrimaryInvocation(cfg, AudioKind).options
    ensures ParseInt(RetryInvocation(cfg, AudioKind).options.preferredQuality.value) == Some(cfg.audioKbitrate)
  {
  }

  /** What the engine does for one invocation: the calls its progress hook
      sees, how the awaited call ends, and the files it leaves behind. */
  datatype EngineRun = EngineRun(hook: seq<HookInput>, end: EngineEnd, produced: seq<string>)

  /** The world around the orchestrator. `sizeOf` lacks a path exactly when
      `os.path.getsize` raises for it. */
  datatype Env = Env(
    cfg: Config,
    probe: DiskProbe,
    engine: Invocation -> EngineRun,
    sizeOf: map<string, int>,
    deliver: (string, SendKind) -> DeliveryOutcome,
    removeFails: set<string>)

  // ---------------------------------------------------------------------
  // Run state
  // ---------------------------------------------------------------------

  /** The task record being driven, the download directory's files for the
      content id, and what happened so far: every status assignment, every
      engine invocation, the hook's notices, the "too large" warnings (one
      per retried pass) and every send attempt. */
  datatype RunState = RunState(
    task: Task,
    disk: Disk,
    statuses: seq<Status>,
    invocations: seq<Invocation>,
    notices: seq<Notice>,
    warnings: seq<Kind>,
    sent: seq<SendRecord>)

  /** Why a run ended in "error": each `raise RuntimeError(...)` of the
      orchestrator, an engine exception, or an exception from a probe. */
  datatype FailReason =
    | InsufficientSpace
    | SpaceProbeFailed
    | EngineFailed(message: string)
    | OutputMissing(kind: Kind, retried: bool)
    | SizeUnreadable

  /** `asyncio.CancelledError`, or any other exception. */
  datatype Fault = Cancelled | Failed(reason: FailReason)

  /** Where the `try` body got to, and what it raised if anything. */
  datatype Step = Step(state: RunState, fault: Option<Fault>)

  function SetStatus(st: RunState, s: Status): (r: RunState)
    ensures r.task.status == s && r.statuses == st.statuses + [s]
  {
    st.(task := st.task.(status := s), statuses := st.statuses + [s])
  }

  /** `b` continues `a`: every history only grew, the task's files only
      grew, and nothing of the task but its status and files changed. */
  predicate Extends(a: RunState, b: RunState) {
    && a.statuses <= b.statuses
    && a.invocations <= b.invocations
    && a.notices <= b.notices
    && a.warnings <= b.warnings
    && a.sent <= b.sent
    && a.task.files <= b.task.files
    && b.task == a.task.(status := b.task.status, files := b.task.files)
  }

  predicate AllSending(s: seq<Status>) {
    forall i :: 0 <= i < |s| ==> s[i] == Sending
  }

  // ---------------------------------------------------------------------
  // The pieces of one pass
  // ---------------------------------------------------------------------

  /** One awaited `ytdlp_download_with_progress`. */
  function Fetch(env: Env, st: RunState, inv: Invocation): (r: Step)
    ensures r.state.invocations == st.invocations + [inv]
    ensures r.state.task == st.task && r.state.statuses == st.statuses
    ensures r.state.warnings == st.warnings && r.state.sent == st.sent
    ensures r.state.notices == st.notices + RunHook(InitialThrottle, env.engine(inv).hook).notices
    // the files the engine leaves are added to the directory, each listed once
    ensures multiset(st.disk) <= multiset(r.state.disk)
    ensures forall p :: p in r.state.disk <==> p in st.disk || p in env.engine(inv).produced
    ensures NoDup(st.disk) ==> NoDup(r.state.disk)
    // a cancel flag seen by the hook, or a cancelled await, cancels the run
    ensures r.fault == Some(Cancelled) <==>
      SomeCancel(env.engine(inv).hook) || MapEngineEnd(env.engine(inv).end) == FetchCancelled
    ensures r.fault.None? <==> !SomeCancel(env.engine(inv).hook) && env.engine(inv).end.Completed?
    ensures r.fault.Some? && r.fault.value.Failed? ==>
      && !SomeCancel(env.engine(inv).hook)
      && r.fault.value.reason.EngineFailed?
      && env.engine(inv).end == EngineRaised(r.fault.value.reason.message)
  {
    var run := env.engine(inv);
    var (ns, outcome) := DownloadWithProgress(run.hook, run.end);
    var disk := AddFiles(st.disk, run.produced);
    var st' := st.(disk := disk, invocations := st.invocations + [inv], notices := st.notices + ns);
    assert multiset(disk) == multiset(st.disk) + multiset(disk[|st.disk|..]) by {
      assert disk == st.disk + disk[|st.disk|..];
    }
    Step(st', FetchFault(outcome))
  }

  /** What an awaited download raises into the task, if anything. */
  function FetchFault(outcome: FetchOutcome): (r: Option<Fault>)
    ensures r.None? <==> outcome == Fetched
    ensures r == Some(Cancelled) <==> outcome == FetchCancelled
    ensures r.Some? && r.value.Failed? ==> r.value.reason.EngineFailed? && outcome == FetchFailed(r.value.reason.message)
  {
    match outcome
    case Fetched => None
    case FetchCancelled => Some(Cancelled)
    case FetchFailed(m) => Some(Failed(EngineFailed(m)))
  }

  /** The files a pass of `kind` wants from the directory `disk`: the mp3s
      for audio; for video the mp4s, or the other containers when there is
      no mp4. */
  predicate Wanted(kind: Kind, disk: Disk, path: string) {
    if kind.AudioKind? then IsMp3(path)
    else if HasMp4(disk) then IsMp4(path)
    else IsFallbackVideo(path)
  }

  /** The picker, run on a sorted arrangement of the directory, keeps
      exactly the wanted files, sorted, each of the pass's kind. */
  lemma PickedWanted(listing: seq<string>, disk: Disk, kind: Kind)
    requires Sorted(listing) && multiset(listing) == multiset(disk)
    ensures var r := PickFilesForChoice(listing, KindChoice(kind));
      && Sorted(r)
      && (forall x :: multiset(r)[x] == (if Wanted(kind, disk, x) then multiset(disk)[x] else 0))
      && (forall i :: 0 <= i < |r| ==> KindMatches(kind, r[i]) && r[i] in disk)
      && (NoDup(disk) ==> NoDup(r))
  {
    HasMp4SameFiles(listing, disk);
    var r := PickFilesForChoice(listing, KindChoice(kind));
    SubseqSorted(r, listing);
    if kind.AudioKind? {
      assert SelectsExactly(r, listing, IsMp3);
    } else if HasMp4(listing) {
      assert SelectsExactly(r, listing, IsMp4);
    } else {
      assert SelectsExactly(r, listing, IsFallbackVideo);
    }
    assert forall x :: multiset(r)[x] <= multiset(disk)[x];
    forall i | 0 <= i < |r|
      ensures KindMatches(kind, r[i]) && r[i] in disk
    {
      assert multiset(r)[r[i]] > 0;
      assert r[i] in multiset(listing);
    }
  }

  /** `pick_files_for_choice(find_output_files(vid_id), kind)`: exactly the
      wanted files of the directory, each as often as listed, in sorted
      order. */
  function Selected(st: RunState, kind: Kind): (r: seq<string>)
    ensures Sorted(r)
    ensures forall x :: multiset(r)[x] == (if Wanted(kind, st.disk, x) then multiset(st.disk)[x] else 0)
    ensures forall i :: 0 <= i < |r| ==> KindMatches(kind, r[i]) && r[i] in st.disk
    ensures NoDup(st.disk) ==> NoDup(r)
  {
    var listing := FindOutputFiles(st.disk);
    PickedWanted(listing, st.disk, kind);
    PickFilesForChoice(listing, KindChoice(kind))
  }

  /** The size of `p` is known and within the cap. */
  predicate Fits(sizeOf: map<string, int>, capMb: int, p: string) {
    p in sizeOf && sizeOf[p] <= capMb * Mebibyte
  }

  /** `any(os.path.getsize(fp) / (1024 * 1024) > TELEGRAM_MAX_MB for fp in files)`.
      `any` stops at the first oversized file; a size probe that raises
      before that propagates (`None`). Dividing by 2**20 is exact in
      floating point, so the test is `size > TELEGRAM_MAX_MB * 2**20` on
      integers. */
  function AnyTooBig(files: seq<string>, sizeOf: map<string, int>, capMb: int): (r: Option<bool>)
    ensures r == Some(false) <==> forall i :: 0 <= i < |files| ==> Fits(sizeOf, capMb, files[i])
    // the first file that does not fit decides: oversized gives true, unreadable gives None
    ensures r == Some(true) ==>
      exists i :: 0 <= i < |files| && files[i] in sizeOf && sizeOf[files[i]] > capMb * Mebibyte
        && forall j :: 0 <= j < i ==> Fits(sizeOf, capMb, files[j])
    ensures r.None? ==>
      exists i :: 0 <= i < |files| && files[i] !in sizeOf
        && forall j :: 0 <= j < i ==> Fits(sizeOf, capMb, files[j])
    decreases |files|
  {
    if |files| == 0 then Some(false)
    else if files[0] !in sizeOf then
      None
    else if sizeOf[files[0]] > capMb * Mebibyte then
      Some(true)
    else
      var rest := AnyTooBig(files[1..], sizeOf, capMb);
      assert forall i :: 0 <= i < |files| - 1 ==> files[1..][i] == files[i + 1];
      assert forall i :: 1 <= i < |files| ==> files[i] == files[1..][i - 1];
      var tail := files[1..];
      assert rest == Some(true) ==>
        exists i :: 0 <= i < |files| && files[i] in sizeOf && sizeOf[files[i]] > capMb * Mebibyte
          && forall j :: 0 <= j < i ==> Fits(sizeOf, capMb, files[j]) by {
        if rest == Some(true) {
          var k :| 0 <= k < |tail| && tail[k] in sizeOf && sizeOf[tail[k]] > capMb * Mebibyte
            && forall j :: 0 <= j < k ==> Fits(sizeOf, capMb, tail[j]);
          assert files[k + 1] == tail[k];
          assert forall j :: 0 <= j < k + 1 ==> Fits(sizeOf, capMb, files[j]);
        }
      }
      assert rest.None? ==>
        exists i :: 0 <= i < |files| && files[i] !in sizeOf
          && forall j :: 0 <= j < i ==> Fits(sizeOf, capMb, files[j]) by {
        if rest.None? {
          var k :| 0 <= k < |tail| && tail[k] !in sizeOf
            && forall j :: 0 <= j < k ==> Fits(sizeOf, capMb, tail[j]);
          assert files[k + 1] == tail[k];
          assert forall j :: 0 <= j < k + 1 ==> Fits(sizeOf, capMb, files[j]);
        }
      }
      rest
  }

  /** `task["files"].extend(files)`, `status = "sending"`, `send_files(...)`.
      A cancellation during a send ends the run as cancelled. */
  function Deliver(env: Env, st: RunState, files: seq<string>): (r: Step)
    ensures r.state.task.files == st.task.files + files
    ensures r.state.task == st.task.(status := Sending, files := r.state.task.files)
    ensures r.state.statuses == st.statuses + [Sending]
    ensures r.state.disk == st.disk && r.state.invocations == st.invocations
    ensures r.state.notices == st.notices && r.state.warnings == st.warnings
    ensures r.state.sent == st.sent + SendFiles(files, env.deliver).records
    ensures r.fault.None? || r.fault == Some(Cancelled)
    ensures r.fault.None? <==> |SendFiles(files, env.deliver).records| == |files|
    ensures r.fault == (if SendFiles(files, env.deliver).interrupted then Some(Cancelled) else None)
  {
    var st1 := SetStatus(st.(task := st.task.(files := st.task.files + files)), Sending);
    var report := SendFiles(files, env.deliver);
    Step(st1.(sent := st1.sent + report.records), if report.interrupted then Some(Cancelled) else None)
  }

  // ---------------------------------------------------------------------
  // One pass
  // ---------------------------------------------------------------------

  /** The state after the oversized first selection is set aside: the
      warning is sent and `safe_cleanup` runs on those files. */
  function Degrade(env: Env, st: RunState, kind: Kind, files: seq<string>): (r: RunState)
    ensures r == st.(warnings := st.warnings + [kind], disk := r.disk)
    ensures !env.cfg.cleanupAfterSend ==> r.disk == st.disk
    ensures env.cfg.cleanupAfterSend ==> forall p :: p in files && p !in env.removeFails ==> p !in r.disk
    ensures forall p :: p in st.disk && (p !in files || p in env.removeFails) ==> p in r.disk
  {
    st.(warnings := st.warnings + [kind], disk := SafeCleanup(env.cfg.cleanupAfterSend, st.disk, files, env.removeFails))
  }

  /** What one pass may do to the run: the histories only grow; the status
      becomes "sending" exactly when the pass records files, and then only
      files of the pass's kind that are in the directory; the directory
      loses only files of the pass's kind, and none at all when cleanup is
      disabled; a directory listing each path once stays so, and then the
      pass records each path once; every file the pass sends is one it
      recorded. */
  ghost predicate PassEffect(st: RunState, r: RunState, kind: Kind, cleanup: bool) {
    && Extends(st, r)
    && (r.statuses == st.statuses || r.statuses == st.statuses + [Sending])
    && (r.statuses == st.statuses + [Sending] <==> |r.task.files| > |st.task.files|)
    && (r.statuses == st.statuses ==> r.task == st.task)
    && (r.statuses == st.statuses + [Sending] ==> r.task.status == Sending)
    && (forall i :: |st.task.files| <= i < |r.task.files| ==> KindMatches(kind, r.task.files[i]) && r.task.files[i] in r.disk)
    && (forall p :: p in st.disk && !KindMatches(kind, p) ==> p in r.disk)
    && (NoDup(st.disk) ==> NoDup(r.disk) && NoDup(r.task.files[|st.task.files|..]))
    && (!cleanup ==> multiset(st.disk) <= multiset(r.disk))
    && (forall i :: |st.sent| <= i < |r.sent| ==> r.sent[i].path in r.task.files[|st.task.files|..])
  }

  /** A fetch is a step of a pass that changes no status. */
  lemma FetchIsPassStep(env: Env, st: RunState, inv: Invocation, kind: Kind)
    ensures PassEffect(st, Fetch(env, st, inv).state, kind, env.cfg.cleanupAfterSend)
    ensures Fetch(env, st, inv).state.statuses == st.statuses
  {
    var r := Fetch(env, st, inv).state;
    assert r.task.files[|st.task.files|..] == [];
  }

  /** Setting an oversized selection aside is a step of its pass that
      changes no status. */
  lemma DegradeIsPassStep(env: Env, st: RunState, kind: Kind, files: seq<string>)
    requires forall i :: 0 <= i < |files| ==> KindMatches(kind, files[i])
    ensures PassEffect(st, Degrade(env, st, kind, files), kind, env.cfg.cleanupAfterSend)
  {
    var r := Degrade(env, st, kind, files);
    SafeCleanupShrinks(env.cfg.cleanupAfterSend, st.disk, files, env.removeFails);
    assert r.task.files[|st.task.files|..] == [];
    forall p | p in st.disk && !KindMatches(kind, p)
      ensures p in r.disk
    {
      assert p !in files;
    }
  }

  /** A step that changes no status followed by a pass is a pass. */
  lemma PassEffectCompose(a: RunState, b: RunState, c: RunState, kind: Kind, cleanup: bool)
    requires PassEffect(a, b, kind, cleanup) && b.statuses == a.statuses
    requires PassEffect(b, c, kind, cleanup)
    ensures PassEffect(a, c, kind, cleanup)
  {
    assert b.task == a.task;
  }

  /** Recording and sending a non-empty selection of the pass's kind taken
      from the directory. */
  function SendSelection(env: Env, st: RunState, kind: Kind, files: seq<string>): (r: Step)
    requires files != []
    requires forall i :: 0 <= i < |files| ==> KindMatches(kind, files[i]) && files[i] in st.disk
    requires NoDup(st.disk) ==> NoDup(files)
    ensures PassEffect(st, r.state, kind, env.cfg.cleanupAfterSend)
    ensures r.state.statuses == st.statuses + [Sending]
    ensures r.state.task.files == st.task.files + files
    ensures r.state.invocations == st.invocations && r.state.warnings == st.warnings
    // the pass sends what it records; a failed send is only a record, and
    // only a cancelled send faults
    ensures r.state.sent == st.sent + SendFiles(files, env.deliver).records
    ensures r.fault == (if SendFiles(files, env.deliver).interrupted then Some(Cancelled) else None)
  {
    var r := Deliver(env, st, files);
    assert r.state.task.files[|st.task.files|..] == files;
    r
  }

  /** The retry request, its selection, and the send. After the retry only
      an empty selection is an error: the size is not checked again. */
  function AfterDegrade(env: Env, s2: RunState, kind: Kind): (r: Step)
    ensures PassEffect(s2, r.state, kind, env.cfg.cleanupAfterSend)
    ensures r.state.invocations == s2.invocations + [RetryInvocation(env.cfg, kind)]
    ensures r.state.warnings == s2.warnings
    ensures r.fault.None? ==> r.state.statuses == s2.statuses + [Sending]
    ensures var q := Fetch(env, s2, RetryInvocation(env.cfg, kind));
      && (q.fault.Some? ==> r == q)
      && (q.fault.None? && Selected(q.state, kind) == [] ==> r == Step(q.state, Some(Failed(OutputMissing(kind, true)))))
      && (q.fault.None? && Selected(q.state, kind) != [] ==>
            && r.state.task.files == s2.task.files + Selected(q.state, kind) && r.state.task.status == Sending
            // sent without a second size check
            && r.state.sent == s2.sent + SendFiles(Selected(q.state, kind), env.deliver).records
            && r.fault == (if SendFiles(Selected(q.state, kind), env.deliver).interrupted then Some(Cancelled) else None))
  {
    var retry := Fetch(env, s2, RetryInvocation(env.cfg, kind));
    FetchIsPassStep(env, s2, RetryInvocation(env.cfg, kind), kind);
    if retry.fault.Some? then retry
    else
      var s3 := retry.state;
      var again := Selected(s3, kind);
      if again == [] then Step(s3, Some(Failed(OutputMissing(kind, true))))
      else
        var r := SendSelection(env, s3, kind, again);
        PassEffectCompose(s2, s3, r.state, kind, env.cfg.cleanupAfterSend);
        r
  }

  /** After the first request: the selection, the size check, and either
      the send or the one retry. */
  function AfterPrimary(env: Env, s1: RunState, kind: Kind): (r: Step)
    ensures PassEffect(s1, r.state, kind, env.cfg.cleanupAfterSend)
    ensures r.state.invocations == s1.invocations || r.state.invocations == s1.invocations + [RetryInvocation(env.cfg, kind)]
    ensures r.state.invocations == s1.invocations + [RetryInvocation(env.cfg, kind)] <==> r.state.warnings == s1.warnings + [kind]
    ensures r.state.warnings == s1.warnings || r.state.warnings == s1.warnings + [kind]
    ensures r.fault.None? ==> r.state.statuses == s1.statuses + [Sending]
    // each outcome of the selection and the size check
    ensures var sel := Selected(s1, kind);
      var big := AnyTooBig(sel, env.sizeOf, env.cfg.telegramMaxMb);
      && (sel == [] ==> r == Step(s1, Some(Failed(OutputMissing(kind, false)))))
      && (sel != [] && big.None? ==> r == Step(s1, Some(Failed(SizeUnreadable))))
      && (sel != [] && big == Some(false) ==>
            && r.state.invocations == s1.invocations && r.state.task.files == s1.task.files + sel
            && r.state.sent == s1.sent + SendFiles(sel, env.deliver).records
            && r.fault == (if SendFiles(sel, env.deliver).interrupted then Some(Cancelled) else None))
      && (r.state.invocations == s1.invocations + [RetryInvocation(env.cfg, kind)] <==> sel != [] && big == Some(true))
  {
    var files := Selected(s1, kind);
    if files == [] then Step(s1, Some(Failed(OutputMissing(kind, false))))
    else
      match AnyTooBig(files, env.sizeOf, env.cfg.telegramMaxMb)
      case None => Step(s1, Some(Failed(SizeUnreadable)))
      case Some(tooBig) =>
        if !tooBig then SendSelection(env, s1, kind, files)
        else
          var s2 := Degrade(env, s1, kind, files);
          DegradeIsPassStep(env, s1, kind, files);
          var r := AfterDegrade(env, s2, kind);
          PassEffectCompose(s1, s2, r.state, kind, env.cfg.cleanupAfterSend);
          r
  }

  /** One `if choice == ...` block of the `try` body. */
  function RunPass(env: Env, st: RunState, kind: Kind): (r: Step)
    ensures PassEffect(st, r.state, kind, env.cfg.cleanupAfterSend)
    // exactly one retry at most: the engine is asked once, or a second time
    // with the reduced request
    ensures || r.state.invocations == st.invocations + [PrimaryInvocation(env.cfg, kind)]
            || r.state.invocations == st.invocations + [PrimaryInvocation(env.cfg, kind), RetryInvocation(env.cfg, kind)]
    ensures |r.state.invocations| == |st.invocations| + 2 <==> r.state.warnings == st.warnings + [kind]
    ensures r.state.warnings == st.warnings || r.state.warnings == st.warnings + [kind]
    ensures r.fault.None? ==> r.state.statuses == st.statuses + [Sending]
    // what decides the pass: the first request, its selection and the size check
    ensures var p := Fetch(env, st, PrimaryInvocation(env.cfg, kind));
      var sel := Selected(p.state, kind);
      var big := AnyTooBig(sel, env.sizeOf, env.cfg.telegramMaxMb);
      && (p.fault.Some? ==> r == p)
      && (p.fault.None? && sel == [] ==> r.fault == Some(Failed(OutputMissing(kind, false))))
      && (p.fault.None? && sel != [] && big.None? ==> r.fault == Some(Failed(SizeUnreadable)))
      && (p.fault.None? && sel != [] && big == Some(false) ==>
            && r.state.task.files == st.task.files + sel
            && r.state.sent == st.sent + SendFiles(sel, env.deliver).records
            && r.fault == (if SendFiles(sel, env.deliver).interrupted then Some(Cancelled) else None))
      // the retry happens exactly when the first selection holds an oversized file
      && (|r.state.invocations| == |st.invocations| + 2 <==> p.fault.None? && sel != [] && big == Some(true))
  {
    var primary := Fetch(env, st, PrimaryInvocation(env.cfg, kind));
    FetchIsPassStep(env, st, PrimaryInvocation(env.cfg, kind), kind);
    if primary.fault.Some? then primary
    else
      var s1 := primary.state;
      var r := AfterPrimary(env, s1, kind);
      PassEffectCompose(st, s1, r.state, kind, env.cfg.cleanupAfterSend);
      PrimaryThenRest(st, s1, r.state, PrimaryInvocation(env.cfg, kind), RetryInvocation(env.cfg, kind), kind);
      r
  }

  /** The request and warning histories of a pass, from those of the first
      request and of what follows it. */
  lemma PrimaryThenRest(st: RunState, s1: RunState, r: RunState, first: Invocation, retry: Invocation, kind: Kind)
    requires s1.invocations == st.invocations + [first] && s1.warnings == st.warnings
    requires r.invocations == s1.invocations || r.invocations == s1.invocations + [retry]
    requires r.invocations == s1.invocations + [retry] <==> r.warnings == s1.warnings + [kind]
    requires r.warnings == s1.warnings || r.warnings == s1.warnings + [kind]
    ensures r.invocations == st.invocations + [first] || r.invocations == st.invocations + [first, retry]
    ensures |r.invocations| == |st.invocations| + 2 <==> r.invocations == s1.invocations + [retry]
    ensures |r.invocations| == |st.invocations| + 2 <==> r.warnings == st.warnings + [kind]
    ensures r.warnings == st.warnings || r.warnings == st.warnings + [kind]
  {
    assert st.invocations + [first] + [retry] == st.invocations + [first, retry];
  }

  /** The retry's selection is sent without a second size check: even when
      every file it picked is still over the cap, the pass records and sends
      them. */
  lemma RetryNotRechecked(env: Env, st: RunState, kind: Kind)
    requires Fetch(env, st, PrimaryInvocation(env.cfg, kind)).fault.None?
    requires var s1 := Fetch(env, st, PrimaryInvocation(env.cfg, kind)).state;
      Selected(s1, kind) != [] && AnyTooBig(Selected(s1, kind), env.sizeOf, env.cfg.telegramMaxMb) == Some(true)
    requires var s1 := Fetch(env, st, PrimaryInvocation(env.cfg, kind)).state;
      var retry := Fetch(env, Degrade(env, s1, kind, Selected(s1, kind)), RetryInvocation(env.cfg, kind));
      retry.fault.None? && Selected(retry.state, kind) != []
    ensures var s1 := Fetch(env, st, PrimaryInvocation(env.cfg, kind)).state;
      var retry := Fetch(env, Degrade(env, s1, kind, Selected(s1, kind)), RetryInvocation(env.cfg, kind));
      && RunPass(env, st, kind).state.task.files == st.task.files + Selected(retry.state, kind)
      && RunPass(env, st, kind).state.task.status == Sending
      && RunPass(env, st, kind).fault != Some(Failed(OutputMissing(kind, true)))
      // the retry's selection is sent, and only a cancelled send faults
      && RunPass(env, st, kind).state.sent == st.sent + SendFiles(Selected(retry.state, kind), env.deliver).records
      && RunPass(env, st, kind).fault ==
           (if SendFiles(Selected(retry.state, kind), env.deliver).interrupted then Some(Cancelled) else None)
  {
  }

  /** An oversized first selection stays on disk through the retry when
      cleanup is disabled: `safe_cleanup` returns before removing anything. */
  lemma OversizedKeptWithoutCleanup(env: Env, st: RunState, kind: Kind, files: seq<string>)
    requires !env.cfg.cleanupAfterSend
    ensures Degrade(env, st, kind, files).disk == st.disk
    ensures forall i :: 0 <= i < |files| && files[i] in st.disk ==> files[i] in Degrade(env, st, kind, files).disk
  {
  }

  // ---------------------------------------------------------------------
  // All passes
  // ---------------------------------------------------------------------

  /** What a sequence of passes may do to the run: as for one pass, except
      that each recorded file is of some pass's kind, the directory loses
      only files of some pass's kind, and any number of "sending"
      assignments may follow one another. */
  ghost predicate PassesEffect(st: RunState, r: RunState, passes: seq<Kind>, cleanup: bool) {
    && Extends(st, r)
    && AllSending(r.statuses[|st.statuses|..])
    && (|r.statuses| > |st.statuses| ==> r.task.status == Sending)
    && (|r.statuses| == |st.statuses| ==> r.task == st.task)
    && (forall i :: |st.task.files| <= i < |r.task.files| ==> OfSomePass(passes, r.task.files[i]) && r.task.files[i] in r.disk)
    && (forall p :: p in st.disk && !OfSomePass(passes, p) ==> p in r.disk)
    && (NoDup(st.disk) ==> NoDup(r.disk) && NoDup(r.task.files[|st.task.files|..]))
    && (!cleanup ==> multiset(st.disk) <= multiset(r.disk))
    && (forall i :: |st.sent| <= i < |r.sent| ==> r.sent[i].path in r.task.files[|st.task.files|..])
  }

  predicate OfSomePass(passes: seq<Kind>, path: string) {
    exists k :: 0 <= k < |passes| && KindMatches(passes[k], path)
  }

  /** A single pass is a one-element run of passes. */
  lemma PassIsPasses(st: RunState, r: RunState, passes: seq<Kind>, cleanup: bool)
    requires |passes| > 0 && PassEffect(st, r, passes[0], cleanup)
    ensures PassesEffect(st, r, passes, cleanup)
  {
    forall i | |st.task.files| <= i < |r.task.files|
      ensures OfSomePass(passes, r.task.files[i])
    {
      assert KindMatches(passes[0], r.task.files[i]);
    }
    forall p | p in st.disk && !OfSomePass(passes, p)
      ensures p in r.disk
    {
      assert !KindMatches(passes[0], p);
    }
    if r.statuses != st.statuses {
      assert r.statuses[|st.statuses|..] == [Sending];
    }
  }

  /** A file of the first pass's kind is of none of the later passes' kinds
      when the passes' kinds are distinct. */
  lemma FirstKindNotLater(passes: seq<Kind>, path: string)
    requires |passes| > 0 && KindMatches(passes[0], path)
    requires forall k :: 0 < k < |passes| ==> passes[k] != passes[0]
    ensures !OfSomePass(passes[1..], path)
  {
    if OfSomePass(passes[1..], path) {
      var k :| 0 <= k < |passes[1..]| && KindMatches(passes[1..][k], path);
      KindsDisjoint(passes[0], passes[k + 1], path);
    }
  }

  /** The first pass followed by the rest is a run of all the passes. */
  lemma PassesCompose(st: RunState, mid: RunState, r: RunState, passes: seq<Kind>, cleanup: bool)
    requires |passes| > 0
    requires forall k :: 0 < k < |passes| ==> passes[k] != passes[0]
    requires PassEffect(st, mid, passes[0], cleanup) && mid.statuses == st.statuses + [Sending]
    requires PassesEffect(mid, r, passes[1..], cleanup)
    ensures PassesEffect(st, r, passes, cleanup)
  {
    assert r.statuses[|st.statuses|..] == [Sending] + r.statuses[|mid.statuses|..];
    forall i | |st.task.files| <= i < |r.task.files|
      ensures OfSomePass(passes, r.task.files[i]) && r.task.files[i] in r.disk
    {
      if i < |mid.task.files| {
        var f := r.task.files[i];
        assert f == mid.task.files[i];
        assert KindMatches(passes[0], f) && f in mid.disk;
        FirstKindNotLater(passes, f);
      } else {
        assert OfSomePass(passes[1..], r.task.files[i]);
        var k :| 0 <= k < |passes[1..]| && KindMatches(passes[1..][k], r.task.files[i]);
        assert passes[1..][k] == passes[k + 1];
      }
    }
    forall p | p in st.disk && !OfSomePass(passes, p)
      ensures p in r.disk
    {
      assert !OfSomePass(passes[1..], p) by {
        forall k | 0 <= k < |passes[1..]|
          ensures !KindMatches(passes[1..][k], p)
        {
          assert passes[1..][k] == passes[k + 1];
        }
      }
    }
    if NoDup(st.disk) {
      var a := mid.task.files[|st.task.files|..];
      var b := r.task.files[|mid.task.files|..];
      forall x | x in a
        ensures x !in b
      {
        var i :| 0 <= i < |a| && a[i] == x;
        assert KindMatches(passes[0], mid.task.files[|st.task.files| + i]);
        FirstKindNotLater(passes, x);
      }
      NoDupAppend(a, b);
      assert r.task.files[|st.task.files|..] == a + b;
    }
  }

  /** Where `k` stands in the pass list. */
  function PassIndex(passes: seq<Kind>, k: Kind): (i: nat)
    requires k in passes
    ensures i < |passes| && passes[i] == k
    ensures forall j :: 0 <= j < i ==> passes[j] != k
  {
    if passes[0] == k then 0 else 1 + PassIndex(passes[1..], k)
  }

  /** The requests of a run, in pass order: each is for one of the passes,
      and no request of a later pass comes before one of an earlier pass. */
  ghost predicate InPassOrder(invs: seq<Invocation>, passes: seq<Kind>) {
    && (forall i :: 0 <= i < |invs| ==> invs[i].kind in passes)
    && (forall i, j :: 0 <= i < j < |invs| ==> PassIndex(passes, invs[i].kind) <= PassIndex(passes, invs[j].kind))
  }

  /** The requests of the first pass followed by those of the rest are in
      pass order. */
  lemma InPassOrderCons(passes: seq<Kind>, first: seq<Invocation>, rest: seq<Invocation>)
    requires |passes| > 0 && DistinctKinds(passes)
    requires forall i :: 0 <= i < |first| ==> first[i].kind == passes[0]
    requires InPassOrder(rest, passes[1..])
    ensures InPassOrder(first + rest, passes)
  {
    DistinctKindsTail(passes);
    var all := first + rest;
    forall i | 0 <= i < |rest|
      ensures rest[i].kind in passes && PassIndex(passes, rest[i].kind) == 1 + PassIndex(passes[1..], rest[i].kind)
    {
      var k := PassIndex(passes[1..], rest[i].kind);
      assert passes[k + 1] == rest[i].kind;
    }
    forall i, j | 0 <= i < j < |all|
      ensures PassIndex(passes, all[i].kind) <= PassIndex(passes, all[j].kind)
    {
      if j < |first| {
        assert all[i] == first[i] && all[j] == first[j];
      } else if i < |first| {
        assert all[i] == first[i] && all[j] == rest[j - |first|];
      } else {
        assert all[i] == rest[i - |first|] && all[j] == rest[j - |first|];
      }
    }
    forall i | 0 <= i < |all|
      ensures all[i].kind in passes
    {
      if i < |first| { assert all[i] == first[i]; } else { assert all[i] == rest[i - |first|]; }
    }
  }

  /** Dropping the first of distinct kinds leaves distinct kinds, none of
      them the first. */
  lemma DistinctKindsTail(passes: seq<Kind>)
    requires |passes| > 0 && DistinctKinds(passes)
    ensures DistinctKinds(passes[1..])
    ensures forall k :: 0 < k < |passes| ==> passes[k] != passes[0]
  {
  }

  /** The passes in order; the first exception skips the rest
      (`RunPassesInOrder` and `RunPassesAppend` below). The passes
      are of distinct kinds, as the fixed pass lists are. */
  function RunPasses(env: Env, st: RunState, passes: seq<Kind>): (r: Step)
    requires DistinctKinds(passes)
    ensures PassesEffect(st, r.state, passes, env.cfg.cleanupAfterSend)
    ensures |st.invocations| + (if r.fault.None? then |passes| else 1) <= |r.state.invocations|
    ensures |r.state.invocations| <= |st.invocations| + 2 * |passes|
    ensures r.fault.None? ==> |r.state.statuses| == |st.statuses| + |passes|
    decreases |passes|
  {
    if |passes| == 0 then
      assert st.statuses[|st.statuses|..] == [];
      assert st.task.files[|st.task.files|..] == [];
      Step(st, None)
    else
      var first := RunPass(env, st, passes[0]);
      PassIsPasses(st, first.state, passes, env.cfg.cleanupAfterSend);
      if first.fault.Some? then first
      else
        DistinctKindsTail(passes);
        var rest := RunPasses(env, first.state, passes[1..]);
        PassesCompose(st, first.state, rest.state, passes, env.cfg.cleanupAfterSend);
        rest
  }

  /** The passes run in list order: no request of a later pass comes before
      one of an earlier pass. */
  lemma {:induction false} RunPassesInOrder(env: Env, st: RunState, passes: seq<Kind>)
    requires DistinctKinds(passes)
    ensures InPassOrder(RunPasses(env, st, passes).state.invocations[|st.invocations|..], passes)
    decreases |passes|
  {
    if |passes| == 0 {
      assert RunPasses(env, st, passes) == Step(st, None);
      assert st.invocations[|st.invocations|..] == [];
    } else {
      var first := RunPass(env, st, passes[0]);
      OwnRequests(st.invocations, first.state.invocations,
                  PrimaryInvocation(env.cfg, passes[0]), RetryInvocation(env.cfg, passes[0]), passes[0]);
      if first.fault.Some? {
        assert RunPasses(env, st, passes) == first;
        InPassOrderOne(passes, st.invocations, first.state.invocations);
      } else {
        DistinctKindsTail(passes);
        var rest := RunPasses(env, first.state, passes[1..]);
        assert RunPasses(env, st, passes) == rest;
        RunPassesInOrder(env, first.state, passes[1..]);
        InPassOrderStep(passes, st.invocations, first.state.invocations, rest.state.invocations);
      }
    }
  }

  /** The run's first request is the first pass's first request. */
  lemma RunPassesFirstRequest(env: Env, st: RunState, passes: seq<Kind>)
    requires DistinctKinds(passes) && |passes| > 0
    ensures var r := RunPasses(env, st, passes);
      |st.invocations| < |r.state.invocations| && r.state.invocations[|st.invocations|] == PrimaryInvocation(env.cfg, passes[0])
  {
    var first := RunPass(env, st, passes[0]);
    OwnRequests(st.invocations, first.state.invocations,
                PrimaryInvocation(env.cfg, passes[0]), RetryInvocation(env.cfg, passes[0]), passes[0]);
    assert first.state.invocations[|st.invocations|] == PrimaryInvocation(env.cfg, passes[0]);
    if first.fault.None? {
      DistinctKindsTail(passes);
      var rest := RunPasses(env, first.state, passes[1..]);
      assert RunPasses(env, st, passes) == rest;
      assert first.state.invocations <= rest.state.invocations;
    }
  }

  /** Requests of the first pass alone are in pass order. */
  lemma InPassOrderOne(passes: seq<Kind>, before: seq<Invocation>, after: seq<Invocation>)
    requires |passes| > 0 && DistinctKinds(passes)
    requires before <= after
    requires forall i :: |before| <= i < |after| ==> after[i].kind == passes[0]
    ensures InPassOrder(after[|before|..], passes)
  {
    var own := after[|before|..];
    assert forall i :: 0 <= i < |own| ==> own[i] == after[|before| + i];
    InPassOrderCons(passes, own, []);
    assert own + [] == own;
  }

  /** The request history after the first pass and after the rest, in pass
      order. */
  lemma InPassOrderStep(passes: seq<Kind>, before: seq<Invocation>, mid: seq<Invocation>, after: seq<Invocation>)
    requires |passes| > 0 && DistinctKinds(passes)
    requires before <= mid <= after
    requires forall i :: |before| <= i < |mid| ==> mid[i].kind == passes[0]
    requires InPassOrder(after[|mid|..], passes[1..])
    ensures InPassOrder(after[|before|..], passes)
  {
    var own := mid[|before|..];
    var later := after[|mid|..];
    assert forall i :: 0 <= i < |own| ==> own[i] == mid[|before| + i];
    InPassOrderCons(passes, own, later);
    assert after[|before|..] == own + later;
  }

  /** The requests one pass adds, its first request and perhaps its retry,
      are all of its kind. */
  lemma OwnRequests(before: seq<Invocation>, after: seq<Invocation>, first: Invocation, retry: Invocation, kind: Kind)
    requires after == before + [first] || after == before + [first, retry]
    requires first.kind == kind && retry.kind == kind
    ensures before <= after && |before| < |after| && after[|before|] == first
    ensures forall i :: |before| <= i < |after| ==> after[i].kind == kind
  {
  }

  /** Running `a` then `b` is running `a`, and then `b` only if `a` raised
      nothing: the passes run in order and the first exception skips the
      rest. */
  lemma {:induction false} RunPassesAppend(env: Env, st: RunState, a: seq<Kind>, b: seq<Kind>)
    requires DistinctKinds(a + b)
    ensures DistinctKinds(a) && DistinctKinds(b)
    ensures var x := RunPasses(env, st, a);
      RunPasses(env, st, a + b) == if x.fault.Some? then x else RunPasses(env, x.state, b)
    decreases |a|
  {
    assert DistinctKinds(a) by {
      forall i, j | 0 <= i < j < |a| ensures a[i] != a[j] { assert a[i] == (a + b)[i] && a[j] == (a + b)[j]; }
    }
    assert DistinctKinds(b) by {
      forall i, j | 0 <= i < j < |b| ensures b[i] != b[j] { assert b[i] == (a + b)[|a| + i] && b[j] == (a + b)[|a| + j]; }
    }
    if |a| == 0 {
      assert a + b == b;
    } else {
      assert (a + b)[0] == a[0];
      assert (a + b)[1..] == a[1..] + b;
      DistinctKindsTail(a + b);
      DistinctKindsTail(a);
      var first := RunPass(env, st, a[0]);
      if first.fault.None? {
        RunPassesAppend(env, first.state, a[1..], b);
      }
    }
  }

  // ---------------------------------------------------------------------
  // The whole task
  // ---------------------------------------------------------------------

  /** `user_downloads.setdefault(user_id, {...})`: the record `handle_choice`
      stored, or a fresh queued one built from the session. */
  function SetdefaultTask(reg: Downloads, user: UserId, choice: string, s: Session): (t: Task)
    ensures user in reg ==> t == reg[user]
    ensures user !in reg ==> t.status == Queued && t.files == [] && !t.cancel && t.work.None? && t.process.None?
  {
    if user in reg then reg[user]
    else Task(Queued, choice, s.title, s.url, s.contentId, [], false, None, None)
  }

  /** The state right after `task["status"] = "downloading"`. */
  function StartRun(reg: Downloads, disk: Disk, user: UserId, choice: string, s: Session): (r: RunState)
    ensures r.statuses == [Status.Downloading] && r.task.status == Status.Downloading
    ensures r.invocations == [] && r.sent == [] && r.warnings == [] && r.notices == []
    ensures r.disk == disk
  {
    SetStatus(RunState(SetdefaultTask(reg, user, choice, s), disk, [], [], [], [], []), Status.Downloading)
  }

  /** The `try` body up to its end or its first exception: the preflight
      space check, then the passes. */
  function TryBody(env: Env, variant: Variant, start: RunState, choice: string): (r: Step)
    ensures PassesEffect(start, r.state, Passes(variant, choice), env.cfg.cleanupAfterSend)
    // the preflight rule: the engine is asked for nothing unless the space check passed
    ensures HasEnoughSpace(env.probe, MinFreeMb(env.cfg)) != Some(true) ==>
      r.state == start && r.fault.Some? && r.fault.value.Failed?
    ensures |r.state.invocations| > |start.invocations| <==>
      HasEnoughSpace(env.probe, MinFreeMb(env.cfg)) == Some(true) && |Passes(variant, choice)| > 0
    ensures |r.state.invocations| <= |start.invocations| + 2 * |Passes(variant, choice)|
    ensures r.fault.None? ==> |r.state.statuses| == |start.statuses| + |Passes(variant, choice)|
  {
    assert start.statuses[|start.statuses|..] == [];
    match HasEnoughSpace(env.probe, MinFreeMb(env.cfg))
    case None => Step(start, Some(Failed(SpaceProbeFailed)))
    case Some(ok) =>
      if !ok then Step(start, Some(Failed(InsufficientSpace)))
      else RunPasses(env, start, Passes(variant, choice))
  }

  /** The status each way out of the `try` sets. */
  function TerminalStatus(fault: Option<Fault>): (s: Status)
    ensures !IsActive(s)
    ensures s == Done <==> fault.None?
    ensures s == Canceled <==> fault == Some(Cancelled)
    ensures s == Error <==> fault.Some? && fault.value.Failed?
  {
    match fault
    case None => Done
    case Some(Cancelled) => Canceled
    case Some(Failed(_)) => Error
  }

  /** What the task leaves behind: the registry, the session store, the final
      run state and the exception the `try` body raised, if any. */
  datatype Outcome = Outcome(reg: Downloads, store: SessionStore, run: RunState, fault: Option<Fault>)

  /** The `finally` block's cleanup: the recorded files are removed when
      cleanup is enabled and the list is not empty. */
  function FinalCleanup(env: Env, st: RunState): (r: RunState)
    ensures r == st.(disk := r.disk)
    ensures env.cfg.cleanupAfterSend ==>
      forall p :: p in st.task.files && p !in env.removeFails ==> p !in r.disk
    ensures !env.cfg.cleanupAfterSend ==> r.disk == st.disk
    ensures multiset(r.disk) <= multiset(st.disk)
    // nothing but a recorded file whose removal works leaves the directory
    ensures forall p :: p in st.disk && (p !in st.task.files || p in env.removeFails) ==> p in r.disk
  {
    if env.cfg.cleanupAfterSend && st.task.files != [] then
      SafeCleanupShrinks(true, st.disk, st.task.files, env.removeFails);
      st.(disk := RemoveAll(st.disk, st.task.files, env.removeFails))
    else st
  }

  /** The `try` body, the `except` clause that sets the final status, and
      the `finally` cleanup, from the state right after "downloading". */
  function RunTask(env: Env, variant: Variant, start: RunState, choice: string): (r: Step)
    requires start.statuses == [Status.Downloading] && start.invocations == [] && start.sent == []
    // every run ends in exactly one of the three final statuses
    ensures r.state.task.status == TerminalStatus(r.fault)
    // the status trace: downloading, one "sending" per recorded pass, final
    ensures |r.state.statuses| >= 2
    ensures r.state.statuses[0] == Status.Downloading && r.state.statuses[|r.state.statuses| - 1] == r.state.task.status
    ensures AllSending(r.state.statuses[1..|r.state.statuses| - 1])
    ensures r.fault.None? ==> |r.state.statuses| == 2 + |Passes(variant, choice)|
    // the preflight rule
    ensures HasEnoughSpace(env.probe, MinFreeMb(env.cfg)) != Some(true) ==>
      r.state.invocations == [] && r.state.sent == [] && r.fault.Some? && r.fault.value.Failed?
    ensures |r.state.invocations| > 0 <==>
      HasEnoughSpace(env.probe, MinFreeMb(env.cfg)) == Some(true) && |Passes(variant, choice)| > 0
    ensures |r.state.invocations| <= 2 * |Passes(variant, choice)|
    // the recorded files grow only by files of the passes' kinds that were
    // in the directory before the final cleanup, each listed once when the
    // directory lists each path once
    ensures start.task.files <= r.state.task.files
    ensures forall i :: |start.task.files| <= i < |r.state.task.files| ==> OfSomePass(Passes(variant, choice), r.state.task.files[i])
    ensures forall i :: |start.task.files| <= i < |r.state.task.files| ==>
      r.state.task.files[i] in TryBody(env, variant, start, choice).state.disk
    ensures NoDup(start.disk) ==> NoDup(r.state.task.files[|start.task.files|..])
    ensures r.state.task == start.task.(status := r.state.task.status, files := r.state.task.files)
    // every file sent is one this run recorded
    ensures forall i :: 0 <= i < |r.state.sent| ==> r.state.sent[i].path in r.state.task.files[|start.task.files|..]
    // the finally block
    ensures env.cfg.cleanupAfterSend ==>
      forall p :: p in r.state.task.files && p !in env.removeFails ==> p !in r.state.disk
    ensures !env.cfg.cleanupAfterSend ==> multiset(start.disk) <= multiset(r.state.disk)
    ensures !env.cfg.cleanupAfterSend ==> r.state.disk == TryBody(env, variant, start, choice).state.disk
    ensures forall p ::
      p in TryBody(env, variant, start, choice).state.disk && (p !in r.state.task.files || p in env.removeFails) ==>
        p in r.state.disk
  {
    var body := TryBody(env, variant, start, choice);
    var final := SetStatus(body.state, TerminalStatus(body.fault));
    assert final.statuses[1..|final.statuses| - 1] == body.state.statuses[|start.statuses|..];
    Step(FinalCleanup(env, final), body.fault)
  }

  /** `download_and_send_task(user_id, ..., choice, session)`: the task
      record it drives is the registry's, and the registry ends with it. */
  function Orchestrate(env: Env, variant: Variant, reg: Downloads, store: SessionStore, disk: Disk,
                       user: UserId, choice: string, session: Session): (r: Outcome)
    ensures r.run.task.status == TerminalStatus(r.fault)
    ensures r.run.task.status in {Done, Canceled, Error}
    ensures |r.run.statuses| >= 2 && r.run.statuses[0] == Status.Downloading
    ensures HasEnoughSpace(env.probe, MinFreeMb(env.cfg)) != Some(true) ==>
      r.run.invocations == [] && r.run.task.status == Error
    ensures SetdefaultTask(reg, user, choice, session).files <= r.run.task.files
    ensures forall i :: |SetdefaultTask(reg, user, choice, session).files| <= i < |r.run.task.files| ==>
      OfSomePass(Passes(variant, choice), r.run.task.files[i])
    ensures !env.cfg.cleanupAfterSend ==> multiset(disk) <= multiset(r.run.disk)
    ensures forall i :: |SetdefaultTask(reg, user, choice, session).files| <= i < |r.run.task.files| ==>
      r.run.task.files[i] in TryBody(env, variant, StartRun(reg, disk, user, choice, session), choice).state.disk
    ensures NoDup(disk) ==> NoDup(r.run.task.files[|SetdefaultTask(reg, user, choice, session).files|..])
    // the task handle is finished once the run returns
    ensures r.run.task.work == FinishWork(SetdefaultTask(reg, user, choice, session).work)
    // the session's durable copy is deleted on every path; the cache keeps it
    ensures r.store.cache == store.cache && user !in r.store.durable
    ensures forall u :: u != user ==> (u in r.store.durable <==> u in store.durable)
    // only the user's own record changes
    ensures user in r.reg && r.reg[user] == r.run.task
    ensures forall u :: u != user ==> (u in r.reg <==> u in reg) && (u in reg ==> r.reg[u] == reg[u])
  {
    var start := StartRun(reg, disk, user, choice, session);
    var run := RunTask(env, variant, start, choice);
    var finished := run.state.(task := run.state.task.(work := FinishWork(run.state.task.work)));
    Outcome(reg[user := finished.task], DeleteSession(store, user), finished, run.fault)
  }

  // ---------------------------------------------------------------------
  // Properties across calls
  // ---------------------------------------------------------------------

  /** A cancel flag seen by the first request's progress hook ends the run as
      canceled, with no further request. */
  lemma CancelFlagCancels(env: Env, variant: Variant, reg: Downloads, store: SessionStore, disk: Disk,
                          user: UserId, choice: string, session: Session)
    requires HasEnoughSpace(env.probe, MinFreeMb(env.cfg)) == Some(true)
    requires |Passes(variant, choice)| > 0
    requires SomeCancel(env.engine(PrimaryInvocation(env.cfg, Passes(variant, choice)[0])).hook)
    ensures var r := Orchestrate(env, variant, reg, store, disk, user, choice, session);
      && r.run.task.status == Canceled
      && r.run.invocations == [PrimaryInvocation(env.cfg, Passes(variant, choice)[0])]
  {
    var start := StartRun(reg, disk, user, choice, session);
    var passes := Passes(variant, choice);
    var first := RunPass(env, start, passes[0]);
    assert first == Fetch(env, start, PrimaryInvocation(env.cfg, passes[0]));
    assert first.fault == Some(Cancelled);
    assert RunPasses(env, start, passes) == first;
  }

  /** main.py's "both": when the video pass went through and the audio pass
      fails, the run ends in error, yet what the video pass sent and recorded
      stays sent and recorded. */
  lemma LegacyBothNoRollback(env: Env, reg: Downloads, store: SessionStore, disk: Disk, user: UserId, session: Session)
    requires HasEnoughSpace(env.probe, MinFreeMb(env.cfg)) == Some(true)
    requires var start := StartRun(reg, disk, user, "both", session);
      var video := RunPass(env, start, VideoKind);
      && video.fault.None?
      && RunPass(env, video.state, AudioKind).fault.Some?
      && RunPass(env, video.state, AudioKind).fault.value.Failed?
    ensures var start := StartRun(reg, disk, user, "both", session);
      var video := RunPass(env, start, VideoKind).state;
      var r := Orchestrate(env, Legacy, reg, store, disk, user, "both", session);
      && r.run.task.status == Error
      && |video.sent| >= |start.sent|
      && video.sent <= r.run.sent
      && video.task.files <= r.run.task.files
      && |r.run.invocations| >= 2
  {
    var start := StartRun(reg, disk, user, "both", session);
    var passes := Passes(Legacy, "both");
    assert passes == [VideoKind, AudioKind];
    var video := RunPass(env, start, VideoKind);
    var audio := RunPass(env, video.state, AudioKind);
    assert passes[1..] == [AudioKind];
    assert RunPasses(env, video.state, [AudioKind]) == audio;
    assert RunPasses(env, start, passes) == audio;
  }

  /** The run never leaves the user's record active, and since the session
      cache survives `delete_session`, a later selection from the same
      keyboard is accepted again. */
  lemma ChoiceAfterRun(env: Env, variant: Variant, reg: Downloads, store: SessionStore, disk: Disk,
                       user: UserId, choice: string, session: Session, next: string)
    requires user in store.cache
    ensures var r := Orchestrate(env, variant, reg, store, disk, user, choice, session);
      && !Busy(r.reg, user)
      && HandleChoice(r.reg, r.store, user, next, true) ==
         (QueuedReply(store.cache[user].title), r.reg[user := FreshTask(next, store.cache[user])])
  {
    var r := Orchestrate(env, variant, reg, store, disk, user, choice, session);
    assert ResolveSession(r.store, user) == Some(store.cache[user]);
  }

  /** A queued selection followed by its task: the record `handle_choice`
      stored is the one the task drives (setdefault finds it), it starts with
      no files, so every file it ends with is of one of the choice's passes'
      kinds and was in the directory after the passes, each listed once when
      the directory lists each path once; it ends in a final status with
      its handle finished. */
  lemma ChoiceThenRun(env: Env, variant: Variant, reg: Downloads, store: SessionStore, disk: Disk,
                      user: UserId, choice: string)
    requires HandleChoice(reg, store, user, choice, true).0.QueuedReply?
    ensures var reg1 := HandleChoice(reg, store, user, choice, true).1;
      var session := ResolveSession(store, user).value;
      var r := Orchestrate(env, variant, reg1, store, disk, user, choice, session);
      && r.run.task.work == Some(WorkHandle(true, false))
      && r.run.task.contentId == session.contentId
      && (forall i :: 0 <= i < |r.run.task.files| ==> OfSomePass(Passes(variant, choice), r.run.task.files[i]))
      && (forall i :: 0 <= i < |r.run.task.files| ==>
            r.run.task.files[i] in TryBody(env, variant, StartRun(reg1, disk, user, choice, session), choice).state.disk)
      && (NoDup(disk) ==> NoDup(r.run.task.files))
      && !IsActive(r.reg[user].status)
  {
    var reg1 := HandleChoice(reg, store, user, choice, true).1;
    var session := ResolveSession(store, user).value;
    assert SetdefaultTask(reg1, user, choice, session) == FreshTask(choice, session);
  }
}

=== FILE: progress.dfy ===
/** The progress hook of dropzone47/download.py (`make_progress_hook`, and
    its copy in main.py) and the exception mapping of
    `ytdlp_download_with_progress`.

    The hook is a pure step over the throttle state `(last_pct, last_t)`: it
    gets the task's cancel flag, the event yt-dlp reported and the current
    time (an integer tick in seconds), and either raises the "cancelled"
    fault or returns the new state and at most one notification. */
module Progress {
  import opened Wrappers

  // ---------------------------------------------------------------------
  // Data
  // ---------------------------------------------------------------------

  /** `state = {"last_t": ..., "last_pct": ...}` of one hook. */
  datatype ThrottleState = ThrottleState(lastPct: int, lastT: int)

  /** A fresh hook starts with `last_t = 0.0`, `last_pct = -1`. */
  const InitialThrottle := ThrottleState(-1, 0)

  /** The fields of a yt-dlp progress dictionary the hook reads. */
  datatype HookEvent =
    | Downloading(downloaded: Option<int>, totalBytes: Option<int>, totalEstimate: Option<int>)
    | Finished
    | OtherStatus

  /** One call of the hook: the task's cancel flag at that moment, the event,
      and `time.time()` as a tick. */
  datatype HookInput = HookInput(cancel: bool, event: HookEvent, now: int)

  /** What the hook hands to the event loop: a percentage caption edit, or the
      "Processing" notice once the download part is finished. */
  datatype Notice = PercentNotice(pct: int, at: int) | ProcessingNotice

  datatype HookOutcome =
    | Raised                                              // RuntimeError("cancelled")
    | Stepped(state: ThrottleState, notice: Option<Notice>)

  // ---------------------------------------------------------------------
  // Percentage
  // ---------------------------------------------------------------------

  /** Python's `x or d` on an optional integer: `None` and `0` are falsy. */
  function OrElse(x: Option<int>, d: int): (r: int)
    ensures x.Some? && x.value != 0 ==> r == x.value
    ensures (x.None? || x.value == 0) ==> r == d
  {
    if x.Some? && x.value != 0 then x.value else d
  }

  /** `total_bytes or total_bytes_estimate or 0`. */
  function EventTotal(totalBytes: Option<int>, totalEstimate: Option<int>): (r: int)
    ensures totalBytes.Some? && totalBytes.value != 0 ==> r == totalBytes.value
    ensures (totalBytes.None? || totalBytes.value == 0) && totalEstimate.Some? && totalEstimate.value != 0 ==>
      r == totalEstimate.value
    ensures r == 0 <==> (totalBytes.None? || totalBytes.value == 0) && (totalEstimate.None? || totalEstimate.value == 0)
  {
    OrElse(totalBytes, OrElse(totalEstimate, 0))
  }

  function Abs(x: int): nat {
    if x < 0 then -x else x
  }

  /** Floor division of naturals brackets the numerator. */
  lemma DivBracket(a: nat, b: nat)
    requires b > 0
    ensures (a / b) * b <= a < (a / b) * b + b
  {
    var q := a / b;
    var r := a % b;
    assert a == q * b + r;
  }

  /** `int(a / b)` for a positive divisor: true division truncated toward
      zero, so the floor for a non-negative numerator and the ceiling for a
      negative one. */
  function TruncDiv(a: int, b: int): (q: int)
    requires b > 0
    ensures a >= 0 ==> 0 <= q && q * b <= a < q * b + b
    ensures a < 0 ==> q <= 0 && (-q) * b <= -a < (-q) * b + b
  {
    var q0 := Abs(a) / b;
    DivBracket(Abs(a), b);
    if a >= 0 then q0 else -q0
  }

  /** A quotient bracketed from above by `n < (q + 1) * t` is at least any
      `k` with `k * t <= n`. */
  lemma QuotientAtLeast(q: int, t: int, n: int, k: int)
    requires t > 0 && n < (q + 1) * t && k * t <= n
    ensures q >= k
  {
    assert (k - (q + 1)) * t == k * t - (q + 1) * t;
    assert (k - (q + 1)) * t < 0;
  }

  /** `int(downloaded * 100 / total) if total else None`. */
  function Percent(downloaded: int, total: int): (r: Option<int>)
    ensures r.None? <==> total == 0
    ensures r.Some? && downloaded >= 0 && total > 0 ==>
      0 <= r.value && r.value * total <= downloaded * 100 < (r.value + 1) * total
    // a download that has reached its total reads at least 100
    ensures r.Some? && 0 < total <= downloaded ==> r.value >= 100
  {
    if total == 0 then None
    else if total > 0 then
      var q := TruncDiv(downloaded * 100, total);
      assert total <= downloaded ==> q >= 100 by {
        if total <= downloaded {
          QuotientAtLeast(q, total, downloaded * 100, 100);
        }
      }
      Some(q)
    // a negative divisor flips the sign; truncation is symmetric about zero
    else Some(-TruncDiv(downloaded * 100, -total))
  }

  /** The percentage a "downloading" event carries, if its total is known. */
  function EventPercent(ev: HookEvent): Option<int>
    requires ev.Downloading?
  {
    Percent(OrElse(ev.downloaded, 0), EventTotal(ev.totalBytes, ev.totalEstimate))
  }

  /** The throttle gate: at least five points more than last time, or more
      than two seconds since the last emission. */
  predicate Gate(st: ThrottleState, pct: int, now: int) {
    pct >= st.lastPct + 5 || now - st.lastT > 2
  }

  // ---------------------------------------------------------------------
  // One call of the hook
  // ---------------------------------------------------------------------

  /** One call of `hook(d)`. */
  function HookStep(st: ThrottleState, input: HookInput): (r: HookOutcome)
    // the cancel flag is checked before the event is looked at
    ensures r.Raised? <==> input.cancel
    // only an emitted percentage moves the throttle state, and it moves to (pct, now)
    ensures r.Stepped? && (r.notice.None? || r.notice == Some(ProcessingNotice)) ==> r.state == st
    ensures r.Stepped? && r.notice.Some? && r.notice.value.PercentNotice? ==>
      && input.event.Downloading?
      && EventPercent(input.event) == Some(r.notice.value.pct)
      && r.notice.value.at == input.now
      && Gate(st, r.notice.value.pct, input.now)
      && r.state == ThrottleState(r.notice.value.pct, input.now)
    // a known percentage is emitted exactly when the gate is open, and a
    // "downloading" event never emits anything but that percentage
    ensures !input.cancel && input.event.Downloading? && EventPercent(input.event).Some? ==>
      (r.notice.Some? <==> Gate(st, EventPercent(input.event).value, input.now))
    ensures !input.cancel && input.event.Downloading? && r.notice.Some? ==>
      EventPercent(input.event).Some? && r.notice.value == PercentNotice(EventPercent(input.event).value, input.now)
    // an unknown total emits nothing
    ensures !input.cancel && input.event.Downloading? && EventPercent(input.event).None? ==>
      r == Stepped(st, None)
    // "finished" always emits the one processing notice; other statuses nothing
    ensures !input.cancel && input.event.Finished? ==> r == Stepped(st, Some(ProcessingNotice))
    ensures !input.cancel && input.event.OtherStatus? ==> r == Stepped(st, None)
  {
    if input.cancel then Raised
    else
      match input.event
      case Downloading(_, _, _) =>
        (match EventPercent(input.event)
         case None => Stepped(st, None)
         case Some(pct) =>
           if Gate(st, pct, input.now) then
             Stepped(ThrottleState(pct, input.now), Some(PercentNotice(pct, input.now)))
           else Stepped(st, None))
      case Finished => Stepped(st, Some(ProcessingNotice))
      case OtherStatus => Stepped(st, None)
  }

  // ---------------------------------------------------------------------
  // A whole engine run seen through one hook
  // ---------------------------------------------------------------------

  /** The notifications a run emitted, the final throttle state, and whether
      the hook raised (which stops the engine). */
  datatype HookRun = HookRun(notices: seq<Notice>, state: ThrottleState, raised: bool)

  predicate SomeCancel(inputs: seq<HookInput>) {
    exists i :: 0 <= i < |inputs| && inputs[i].cancel
  }

  /** Feeds the engine's calls to the hook until it raises. */
  function RunHook(st: ThrottleState, inputs: seq<HookInput>): (r: HookRun)
    ensures r.raised <==> SomeCancel(inputs)
    decreases |inputs|
  {
    if |inputs| == 0 then HookRun([], st, false)
    else
      match HookStep(st, inputs[0])
      case Raised => HookRun([], st, true)
      case Stepped(next, notice) =>
        var rest := RunHook(next, inputs[1..]);
        assert SomeCancel(inputs) <==> SomeCancel(inputs[1..]) by {
          assert forall i :: 1 <= i < |inputs| ==> inputs[i] == inputs[1..][i - 1];
          assert !inputs[0].cancel;
        }
        HookRun(notice.ToSeq() + rest.notices, rest.state, rest.raised)
  }

  /** Every percentage notice passed the gate against the one before it (or
      against the starting state): never two within two seconds unless the
      percentage rose by five points. */
  predicate Spaced(last: ThrottleState, ns: seq<Notice>)
    decreases |ns|
  {
    |ns| == 0 ||
    match ns[0]
    case PercentNotice(p, t) => Gate(last, p, t) && Spaced(ThrottleState(p, t), ns[1..])
    case ProcessingNotice => Spaced(last, ns[1..])
  }

  /** The throttle bound holds for every run of the hook. */
  lemma {:induction false} RunHookSpaced(st: ThrottleState, inputs: seq<HookInput>)
    ensures Spaced(st, RunHook(st, inputs).notices)
    decreases |inputs|
  {
    if |inputs| > 0 {
      var step := HookStep(st, inputs[0]);
      if step.Stepped? {
        RunHookSpaced(step.state, inputs[1..]);
        var rest := RunHook(step.state, inputs[1..]);
        var ns := step.notice.ToSeq() + rest.notices;
        if step.notice.Some? {
          assert ns[1..] == rest.notices;
        } else {
          assert ns == rest.notices;
        }
      }
    }
  }

  /** Index of the first call that saw the cancel flag. */
  function FirstCancel(inputs: seq<HookInput>): (k: nat)
    requires SomeCancel(inputs)
    ensures k < |inputs| && inputs[k].cancel
    ensures forall j :: 0 <= j < k ==> !inputs[j].cancel
    decreases |inputs|
  {
    if inputs[0].cancel then 0
    else
      assert SomeCancel(inputs[1..]) by {
        var i :| 0 <= i < |inputs| && inputs[i].cancel;
        assert inputs[1..][i - 1] == inputs[i];
      }
      1 + FirstCancel(inputs[1..])
  }

  /** Nothing is emitted from the call that sees the flag on: the notices of a
      cancelled run are those of the calls before it. */
  lemma {:induction false} RunHookStopsAtCancel(st: ThrottleState, inputs: seq<HookInput>)
    requires SomeCancel(inputs)
    ensures RunHook(st, inputs).notices == RunHook(st, inputs[..FirstCancel(inputs)]).notices
    ensures RunHook(st, inputs).raised
    decreases |inputs|
  {
    var k := FirstCancel(inputs);
    if k > 0 {
      var step := HookStep(st, inputs[0]);
      assert inputs[1..][..k - 1] == inputs[..k][1..];
      assert SomeCancel(inputs[1..]) by {
        assert inputs[1..][k - 1] == inputs[k];
      }
      assert FirstCancel(inputs[1..]) == k - 1;
      RunHookStopsAtCancel(step.state, inputs[1..]);
    }
  }

  // ---------------------------------------------------------------------
  // Monotone percentages
  // ---------------------------------------------------------------------

  /** The percentage a call reports, when it is a "downloading" event with a
      known total. */
  function InputPercent(input: HookInput): Option<int> {
    if input.event.Downloading? then EventPercent(input.event) else None
  }

  /** Reported percentages never fall and none is below `lo`. */
  predicate NondecreasingFrom(lo: int, inputs: seq<HookInput>) {
    && (forall i :: 0 <= i < |inputs| && InputPercent(inputs[i]).Some? ==> lo <= InputPercent(inputs[i]).value)
    && (forall i, j :: 0 <= i < j < |inputs| && InputPercent(inputs[i]).Some? && InputPercent(inputs[j]).Some? ==>
          InputPercent(inputs[i]).value <= InputPercent(inputs[j]).value)
  }

  /** Percentages in a notice list never fall and none is below `lo`. */
  predicate NoticesNondecreasingFrom(lo: int, ns: seq<Notice>)
    decreases |ns|
  {
    |ns| == 0 ||
    match ns[0]
    case PercentNotice(p, _) => lo <= p && NoticesNondecreasingFrom(p, ns[1..])
    case ProcessingNotice => NoticesNondecreasingFrom(lo, ns[1..])
  }

  /** If the engine reports a non-decreasing percentage, the emitted
      percentages are non-decreasing too. */
  lemma {:induction false} RunHookMonotone(st: ThrottleState, inputs: seq<HookInput>)
    requires NondecreasingFrom(st.lastPct, inputs)
    ensures NoticesNondecreasingFrom(st.lastPct, RunHook(st, inputs).notices)
    decreases |inputs|
  {
    if |inputs| > 0 {
      var step := HookStep(st, inputs[0]);
      if step.Stepped? {
        var tail := inputs[1..];
        assert forall i :: 0 <= i < |tail| ==> tail[i] == inputs[i + 1];
        assert NondecreasingFrom(step.state.lastPct, tail) by {
          if step.notice.Some? && step.notice.value.PercentNotice? {
            assert InputPercent(inputs[0]) == Some(step.state.lastPct);
          }
        }
        RunHookMonotone(step.state, tail);
        var rest := RunHook(step.state, tail);
        var ns := step.notice.ToSeq() + rest.notices;
        if step.notice.Some? {
          assert ns[1..] == rest.notices;
          if step.notice.value.PercentNotice? {
            assert InputPercent(inputs[0]) == Some(step.notice.value.pct);
          }
        } else {
          assert ns == rest.notices;
        }
      }
    }
  }

  // ---------------------------------------------------------------------
  // ytdlp_download_with_progress
  // ---------------------------------------------------------------------

  /** How the awaited engine call ended, as seen by the coroutine. */
  datatype EngineEnd =
    | Completed
    | EngineRaised(message: string)   // an exception out of the worker, by its str()
    | TaskCancelled                   // asyncio cancelled the awaiting task

  /** What the orchestrator sees after one engine invocation. */
  datatype FetchOutcome = Fetched | FetchCancelled | FetchFailed(message: string)

  /** The `except` clause: an exception whose text is exactly "cancelled"
      becomes `CancelledError`; any other is re-raised unchanged. */
  function MapEngineEnd(end: EngineEnd): (r: FetchOutcome)
    ensures r.Fetched? <==> end.Completed?
    ensures r.FetchCancelled? <==> end.TaskCancelled? || end == EngineRaised("cancelled")
    ensures r.FetchFailed? ==> end == EngineRaised(r.message) && r.message != "cancelled"
  {
    match end
    case Completed => Fetched
    case EngineRaised(msg) => if msg == "cancelled" then FetchCancelled else FetchFailed(msg)
    case TaskCancelled => FetchCancelled
  }

  /** One invocation: a fresh hook sees the engine's calls; if it raises, the
      worker ends with `RuntimeError("cancelled")` (the engine passes the
      hook's exception through), otherwise the engine's own ending counts. */
  function DownloadWithProgress(inputs: seq<HookInput>, end: EngineEnd): (r: (seq<Notice>, FetchOutcome))
    ensures r.0 == RunHook(InitialThrottle, inputs).notices
    ensures SomeCancel(inputs) ==> r.1 == FetchCancelled
    ensures !SomeCancel(inputs) ==> r.1 == MapEngineEnd(end)
  {
    var run := RunHook(InitialThrottle, inputs);
    var end' := if run.raised then EngineRaised("cancelled") else end;
    (run.notices, MapEngineEnd(end'))
  }
}

=== FILE: registry.dfy ===
/** The per-user task registry `user_downloads` and the session store of
    dropzone47/session.py, with the handlers of dropzone47/bot.py that update
    them (`handle_choice`, `cmd_cancel`, `cmd_clear_downloads`) and the
    legacy `cmd_cancel` of main.py. Every handler is a pure update of a map
    from user id to task record. */
module Registry {
  import opened Wrappers
  import opened Selection
  import opened Storage

  type UserId = int

  // ---------------------------------------------------------------------
  // Task records
  // ---------------------------------------------------------------------

  /** The `"status"` field of a task record. */
  datatype Status = Queued | Downloading | Sending | Done | Canceled | Error

  /** `status in {"queued", "downloading", "sending"}`. */
  predicate IsActive(s: Status) {
    s.Queued? || s.Downloading? || s.Sending?
  }

  /** The `"async_task"` the handler created: whether it has finished and
      whether `cancel()` was requested on it. */
  datatype WorkHandle = WorkHandle(done: bool, cancelRequested: bool)

  /** The `"process"` field: a subprocess handle the legacy cancel may terminate. */
  datatype ProcessHandle = ProcessHandle(terminated: bool)

  /** One record of `user_downloads` (timestamps left out). */
  datatype Task = Task(
    status: Status,
    choice: string,
    title: string,
    url: string,
    contentId: string,
    files: seq<string>,
    cancel: bool,
    work: Option<WorkHandle>,
    process: Option<ProcessHandle>)

  type Downloads = map<UserId, Task>

  // ---------------------------------------------------------------------
  // Sessions
  // ---------------------------------------------------------------------

  /** What `handle_url` stored for a user: the URL, the title and the content id. */
  datatype Session = Session(url: string, title: string, contentId: string)

  /** The in-memory cache `user_sessions` and the durable shelve store. */
  datatype SessionStore = SessionStore(cache: map<UserId, Session>, durable: map<UserId, Session>)

  /** `user_sessions.get(user_id) or load_session(user_id)`. */
  function ResolveSession(store: SessionStore, user: UserId): (r: Option<Session>)
    ensures r.None? <==> user !in store.cache && user !in store.durable
    ensures user in store.cache ==> r == Some(store.cache[user])
    ensures user !in store.cache && user in store.durable ==> r == Some(store.durable[user])
  {
    if user in store.cache then Some(store.cache[user])
    else if user in store.durable then Some(store.durable[user])
    else None
  }

  /** `delete_session(user_id)`: removes the durable copy only; the cache
      entry is not touched. */
  function DeleteSession(store: SessionStore, user: UserId): (r: SessionStore)
    ensures r.cache == store.cache
    ensures user !in r.durable
    ensures forall u :: u != user ==> (u in r.durable <==> u in store.durable)
    ensures forall u :: u in r.durable ==> r.durable[u] == store.durable[u]
  {
    SessionStore(store.cache, store.durable - {user})
  }

  /** Deleting a session does not make it unresolvable while the cache still
      holds it: a second choice after a finished download finds the session
      again. Only a session known to the durable store alone is consumed. */
  lemma DeleteSessionKeepsCached(store: SessionStore, user: UserId)
    ensures ResolveSession(DeleteSession(store, user), user)
         == (if user in store.cache then Some(store.cache[user]) else None)
    ensures forall u :: u != user ==> ResolveSession(DeleteSession(store, user), u) == ResolveSession(store, u)
  {
  }

  // ---------------------------------------------------------------------
  // handle_choice
  // ---------------------------------------------------------------------

  /** The record `handle_choice` stores when it starts a task. */
  function FreshTask(choice: string, s: Session): (t: Task)
    ensures t.status == Queued && t.files == [] && !t.cancel && t.process.None?
    ensures t.work == Some(WorkHandle(false, false))
    ensures t.choice == choice && t.title == s.title && t.url == s.url && t.contentId == s.contentId
  {
    Task(Queued, choice, s.title, s.url, s.contentId, [], false, Some(WorkHandle(false, false)), None)
  }

  /** What the user is told. */
  datatype ChoiceReply = SessionNotFound | AlreadyInProgress | NoMessage | QueuedReply(title: string)

  /** A record blocks a new selection when it is active. */
  predicate Busy(reg: Downloads, user: UserId) {
    user in reg && IsActive(reg[user].status)
  }

  /** `handle_choice`: the session lookup, the conflict rule, the missing
      message guard, and the fresh queued record. The task it schedules is
      started by the caller (see the orchestrator). */
  function HandleChoice(reg: Downloads, store: SessionStore, user: UserId, choice: string, hasMessage: bool)
    : (r: (ChoiceReply, Downloads))
    ensures ResolveSession(store, user).None? ==> r == (SessionNotFound, reg)
    ensures ResolveSession(store, user).Some? && Busy(reg, user) ==> r == (AlreadyInProgress, reg)
    ensures r.0.QueuedReply? <==> ResolveSession(store, user).Some? && !Busy(reg, user) && hasMessage
    ensures r.0.QueuedReply? ==>
      && r.1 == reg[user := FreshTask(choice, ResolveSession(store, user).value)]
      && r.0.title == ResolveSession(store, user).value.title
    ensures !r.0.QueuedReply? ==> r.1 == reg
    // other users' records are never touched
    ensures forall u :: u != user ==> (u in r.1 <==> u in reg) && (u in reg ==> r.1[u] == reg[u])
  {
    match ResolveSession(store, user)
    case None => (SessionNotFound, reg)
    case Some(s) =>
      if Busy(reg, user) then (AlreadyInProgress, reg)
      else if !hasMessage then (NoMessage, reg)
      else (QueuedReply(s.title), reg[user := FreshTask(choice, s)])
  }

  /** The conflict rule: right after a selection is queued, a second one by
      the same user is refused and changes nothing, while another user's
      selection is judged on that user's record alone. */
  lemma HandleChoiceConflict(reg: Downloads, store: SessionStore, user: UserId, choice: string, again: string,
                             other: UserId, otherChoice: string)
    requires HandleChoice(reg, store, user, choice, true).0.QueuedReply?
    requires other != user
    ensures var reg1 := HandleChoice(reg, store, user, choice, true).1;
      && HandleChoice(reg1, store, user, again, true) == (AlreadyInProgress, reg1)
      && HandleChoice(reg1, store, other, otherChoice, true).0 == HandleChoice(reg, store, other, otherChoice, true).0
  {
    var reg1 := HandleChoice(reg, store, user, choice, true).1;
    assert Busy(reg1, user);
    assert Busy(reg1, other) == Busy(reg, other);
  }

  // ---------------------------------------------------------------------
  // cmd_cancel
  // ---------------------------------------------------------------------

  datatype CancelReply = NothingToCancel | CancelRequested

  /** `atask.cancel()` when the task has not finished. */
  function CancelWork(w: Option<WorkHandle>): (r: Option<WorkHandle>)
    ensures r.Some? <==> w.Some?
    ensures w.Some? && !w.value.done ==> r == Some(WorkHandle(false, true))
    ensures w.Some? && w.value.done ==> r == w
  {
    match w
    case None => None
    case Some(h) => if h.done then w else Some(h.(cancelRequested := true))
  }

  /** The task handle once its coroutine has returned: `done()` holds from
      then on, and a later `cancel()` changes nothing. */
  function FinishWork(w: Option<WorkHandle>): (r: Option<WorkHandle>)
    ensures r.Some? <==> w.Some?
    ensures r.Some? ==> r.value.done && r.value.cancelRequested == w.value.cancelRequested
    ensures CancelWork(r) == r
  {
    match w
    case None => None
    case Some(h) => Some(h.(done := true))
  }

  /** `cmd_cancel` of dropzone47/bot.py. */
  function CmdCancel(reg: Downloads, user: UserId): (r: (CancelReply, Downloads))
    ensures r.0 == CancelRequested <==> Busy(reg, user)
    ensures r.0 == NothingToCancel ==> r.1 == reg
    ensures r.0 == CancelRequested ==>
      && user in r.1
      && r.1[user].cancel
      && r.1[user].work == CancelWork(reg[user].work)
      // nothing but the flag and the task handle changes
      && r.1[user] == reg[user].(cancel := true, work := r.1[user].work)
    ensures r.1.Keys == reg.Keys
    ensures forall u :: u != user && u in reg ==> r.1[u] == reg[u]
  {
    if Busy(reg, user) then
      var t := reg[user];
      (CancelRequested, reg[user := t.(cancel := true, work := CancelWork(t.work))])
    else (NothingToCancel, reg)
  }

  /** `proc.terminate()` inside `try/except: pass`: it either works or
      changes nothing. */
  function Terminate(p: Option<ProcessHandle>, terminateFails: bool): (r: Option<ProcessHandle>)
    ensures p.None? || terminateFails ==> r == p
    ensures p.Some? && !terminateFails ==> r == Some(ProcessHandle(true))
  {
    if p.Some? && !terminateFails then Some(ProcessHandle(true)) else p
  }

  /** `cmd_cancel` of main.py: the dropzone47 handler plus a terminate of the
      recorded process, whose failure is swallowed. */
  function LegacyCmdCancel(reg: Downloads, user: UserId, terminateFails: bool): (r: (CancelReply, Downloads))
    ensures r.0 == CmdCancel(reg, user).0
    ensures r.0 == NothingToCancel ==> r.1 == reg
    ensures r.0 == CancelRequested ==>
      r.1 == CmdCancel(reg, user).1[user := CmdCancel(reg, user).1[user].(process := Terminate(reg[user].process, terminateFails))]
  {
    if Busy(reg, user) then
      var t := reg[user];
      (CancelRequested, reg[user := t.(cancel := true, process := Terminate(t.process, terminateFails), work := CancelWork(t.work))])
    else (NothingToCancel, reg)
  }

  /** With no process recorded (the only value the handlers ever store), the
      two cancel handlers agree. */
  lemma LegacyCancelAgrees(reg: Downloads, user: UserId, terminateFails: bool)
    requires user in reg ==> reg[user].process.None?
    ensures LegacyCmdCancel(reg, user, terminateFails) == CmdCancel(reg, user)
  {
  }

  /** Cancel and conflict use the same status set: a freshly queued task can
      always be cancelled, and after a cancel the record is still active
      (the task itself moves it to a final status). */
  lemma CancelAfterChoice(reg: Downloads, store: SessionStore, user: UserId, choice: string)
    requires HandleChoice(reg, store, user, choice, true).0.QueuedReply?
    ensures var reg1 := HandleChoice(reg, store, user, choice, true).1;
      && CmdCancel(reg1, user).0 == CancelRequested
      && CmdCancel(reg1, user).1[user].work == Some(WorkHandle(false, true))
      && Busy(CmdCancel(reg1, user).1, user)
  {
  }

  // ---------------------------------------------------------------------
  // cmd_clear_downloads
  // ---------------------------------------------------------------------

  datatype ClearReply = NothingToClear | Cleared(removed: nat)

  /** `cmd_clear_downloads`: removes every file `find_output_files` finds for
      the record's content id (when it has one), counting the removals that
      worked, then empties the record's file list. `found` is that listing;
      the result's last component is what is left of it. */
  method ClearDownloads(reg: Downloads, user: UserId, found: Disk, removeFails: set<string>)
    returns (reply: ClearReply, reg': Downloads, left: Disk)
    ensures user !in reg ==> reply == NothingToClear && reg' == reg && left == found
    ensures user in reg ==> reply.Cleared? && reg' == reg[user := reg[user].(files := [])]
    ensures user in reg && reg[user].contentId == "" ==> reply == Cleared(0) && left == found
    ensures user in reg && reg[user].contentId != "" ==>
      && left == Filter(FindOutputFiles(found), Failing(removeFails))
      && reply.removed + |left| == |found|
  {
    if user !in reg {
      return NothingToClear, reg, found;
    }
    var t := reg[user];
    var removed := 0;
    left := found;
    if t.contentId != "" {
      var listing := FindOutputFiles(found);
      removed, left := RemoveCounting(listing, removeFails);
      assert |listing| == |found| by {
        assert |multiset(listing)| == |multiset(found)|;
      }
    }
    reply := Cleared(removed);
    reg' := reg[user := t.(files := [])];
  }
}

=== FILE: selection.dfy ===
/** Output selection of dropzone47/download.py (and its copy in main.py):
    the extension filters of `pick_files_for_choice`, the yt-dlp format
    selector of `build_format_string`, and the sorted listing returned by
    `find_output_files`. */
module Selection {
  import opened Wrappers
  import opened Text

  // ---------------------------------------------------------------------
  // Order-preserving filters
  // ---------------------------------------------------------------------

  /** `a` is obtained from `b` by deleting elements (input order kept). */
  predicate IsSubseq<T(==)>(a: seq<T>, b: seq<T>)
    decreases |b|
  {
    |a| == 0 || (|b| > 0 && ((a[0] == b[0] && IsSubseq(a[1..], b[1..])) || IsSubseq(a, b[1..])))
  }

  /** `r` is exactly the elements of `s` that satisfy `p`, each as often as in
      `s`, in the order of `s`. */
  ghost predicate SelectsExactly<T(!new)>(r: seq<T>, s: seq<T>, p: T -> bool) {
    && IsSubseq(r, s)
    && forall x :: multiset(r)[x] == (if p(x) then multiset(s)[x] else 0)
  }

  /** The list comprehension `[x for x in s if p(x)]`. */
  function Filter<T(==,!new)>(s: seq<T>, p: T -> bool): (r: seq<T>)
    ensures SelectsExactly(r, s, p)
    ensures forall i :: 0 <= i < |r| ==> p(r[i])
  {
    if |s| == 0 then []
    else
      var rest := Filter(s[1..], p);
      assert s == [s[0]] + s[1..];
      if p(s[0]) then [s[0]] + rest else rest
  }

  /** Every element of a subsequence occurs in the original. */
  lemma {:induction false} SubseqMembers<T>(a: seq<T>, b: seq<T>, x: T)
    requires IsSubseq(a, b) && x in a
    ensures x in b
    decreases |b|
  {
    if a[0] == b[0] && IsSubseq(a[1..], b[1..]) {
      if x != a[0] {
        SubseqMembers(a[1..], b[1..], x);
      }
    } else {
      SubseqMembers(a, b[1..], x);
    }
  }

  // ---------------------------------------------------------------------
  // Extensions
  // ---------------------------------------------------------------------

  /** `p.lower().endswith(".mp3")`: the audio container. */
  predicate IsMp3(p: string) {
    EndsWith(Lower(p), ".mp3")
  }

  /** `p.lower().endswith(".mp4")`: the preferred video container. */
  predicate IsMp4(p: string) {
    EndsWith(Lower(p), ".mp4")
  }

  /** `p.lower().endswith((".mkv", ".webm", ".mov"))`: fallback video containers. */
  predicate IsFallbackVideo(p: string) {
    EndsWithAny(Lower(p), [".mkv", ".webm", ".mov"])
  }

  /** The four container extensions are pairwise exclusive: no path carries two. */
  lemma ExtensionsExclusive(p: string)
    ensures !(IsMp4(p) && IsMp3(p))
    ensures !(IsFallbackVideo(p) && IsMp3(p))
    ensures !(IsFallbackVideo(p) && IsMp4(p))
  {
    var l := Lower(p);
    if EndsWith(l, ".mp4") && EndsWith(l, ".mp3") {
      EndsWithBoth(l, ".mp3", ".mp4");
      assert false;
    }
    if EndsWith(l, ".mkv") {
      if EndsWith(l, ".mp3") { EndsWithBoth(l, ".mp3", ".mkv"); assert false; }
      if EndsWith(l, ".mp4") { EndsWithBoth(l, ".mp4", ".mkv"); assert false; }
    }
    if EndsWith(l, ".webm") {
      if EndsWith(l, ".mp3") { EndsWithBoth(l, ".mp3", ".webm"); assert false; }
      if EndsWith(l, ".mp4") { EndsWithBoth(l, ".mp4", ".webm"); assert false; }
    }
    if EndsWith(l, ".mov") {
      if EndsWith(l, ".mp3") { EndsWithBoth(l, ".mp3", ".mov"); assert false; }
      if EndsWith(l, ".mp4") { EndsWithBoth(l, ".mp4", ".mov"); assert false; }
    }
  }

  predicate HasMp4(files: seq<string>) {
    exists i :: 0 <= i < |files| && IsMp4(files[i])
  }

  // ---------------------------------------------------------------------
  // pick_files_for_choice
  // ---------------------------------------------------------------------

  /** Files worth sending for `choice`: the mp3s for "audio"; for "video" the
      mp4s, or the mkv/webm/mov files when there is no mp4; nothing otherwise. */
  function PickFilesForChoice(files: seq<string>, choice: string): (r: seq<string>)
    ensures IsSubseq(r, files)
    ensures choice == "audio" ==> SelectsExactly(r, files, IsMp3)
    ensures choice == "video" && HasMp4(files) ==> SelectsExactly(r, files, IsMp4)
    ensures choice == "video" && !HasMp4(files) ==> SelectsExactly(r, files, IsFallbackVideo)
    ensures choice != "audio" && choice != "video" ==> r == []
    ensures choice == "video" ==> forall i :: 0 <= i < |r| ==> !IsMp3(r[i])
    ensures choice == "video" ==>
      (forall i :: 0 <= i < |r| ==> IsMp4(r[i])) || (forall i :: 0 <= i < |r| ==> IsFallbackVideo(r[i]) && !IsMp4(r[i]))
  {
    if choice == "audio" then Filter(files, IsMp3)
    else if choice == "video" then
      var vids := Filter(files, IsMp4);
      if |vids| > 0 then
        assert HasMp4(files) by { SubseqMembers(vids, files, vids[0]); }
        NoMp3AmongVideos(vids, IsMp4);
        vids
      else
        var fallback := Filter(files, IsFallbackVideo);
        assert !HasMp4(files) by {
          forall i | 0 <= i < |files| ensures !IsMp4(files[i]) {
            assert multiset(files)[files[i]] > 0;
            assert multiset(vids)[files[i]] == 0;
          }
        }
        NoMp3AmongVideos(fallback, IsFallbackVideo);
        NoMp4AmongFallback(fallback, files);
        fallback
    else []
  }

  /** Helper: a list of video-container paths holds no mp3. */
  lemma NoMp3AmongVideos(r: seq<string>, p: string -> bool)
    requires p == IsMp4 || p == IsFallbackVideo
    requires forall i :: 0 <= i < |r| ==> p(r[i])
    ensures forall i :: 0 <= i < |r| ==> !IsMp3(r[i])
  {
    forall i | 0 <= i < |r| ensures !IsMp3(r[i]) {
      ExtensionsExclusive(r[i]);
    }
  }

  /** Helper: fallback-container paths are not mp4 paths. */
  lemma NoMp4AmongFallback(r: seq<string>, files: seq<string>)
    requires forall i :: 0 <= i < |r| ==> IsFallbackVideo(r[i])
    ensures forall i :: 0 <= i < |r| ==> !IsMp4(r[i])
  {
    forall i | 0 <= i < |r| ensures !IsMp4(r[i]) {
      ExtensionsExclusive(r[i]);
    }
  }

  /** The first element of `s` satisfying `p`, if any. */
  function FirstMatch(s: seq<string>, p: string -> bool): (r: Option<string>)
    ensures r.Some? <==> exists i :: 0 <= i < |s| && p(s[i])
    ensures r.Some? ==> exists i :: 0 <= i < |s| && s[i] == r.value && p(s[i]) && forall j :: 0 <= j < i ==> !p(s[j])
  {
    if |s| == 0 then None
    else if p(s[0]) then Some(s[0])
    else
      var r := FirstMatch(s[1..], p);
      assert forall i :: 1 <= i < |s| ==> s[i] == s[1..][i - 1];
      if r.Some? then
        var k :| 0 <= k < |s| - 1 && s[1..][k] == r.value && p(s[1..][k]) && forall j :: 0 <= j < k ==> !p(s[1..][j]);
        assert s[k + 1] == r.value;
        assert forall j :: 0 <= j < k + 1 ==> !p(s[j]) by {
          forall j | 0 <= j < k + 1 ensures !p(s[j]) {
            if j > 0 { assert s[j] == s[1..][j - 1]; }
          }
        }
        r
      else r
  }

  /** The head of a filtered list is the first match. */
  lemma {:induction false} FilterHead(s: seq<string>, p: string -> bool)
    ensures Filter(s, p)[..if |Filter(s, p)| > 0 then 1 else 0] == FirstMatch(s, p).ToSeq()
    decreases |s|
  {
    if |s| > 0 && !p(s[0]) {
      FilterHead(s[1..], p);
    }
  }

  /** main.py's variant: identical for "audio" and "video"; for any other
      choice (the "both" button) the first mp4 followed by the first mp3. */
  function LegacyPickFilesForChoice(files: seq<string>, choice: string): (r: seq<string>)
    ensures choice == "audio" || choice == "video" ==> r == PickFilesForChoice(files, choice)
    ensures choice != "audio" && choice != "video" ==>
      r == FirstMatch(files, IsMp4).ToSeq() + FirstMatch(files, IsMp3).ToSeq()
    ensures choice != "audio" && choice != "video" ==> |r| <= 2 && AmongMp4OrMp3(r, files)
  {
    if choice == "audio" || choice == "video" then PickFilesForChoice(files, choice)
    else
      var aud := Filter(files, IsMp3);
      var vid := Filter(files, IsMp4);
      FilterHead(files, IsMp3);
      FilterHead(files, IsMp4);
      var firstVid := if |vid| > 0 then vid[..1] else [];
      var firstAud := if |aud| > 0 then aud[..1] else [];
      assert firstVid == FirstMatch(files, IsMp4).ToSeq();
      assert firstAud == FirstMatch(files, IsMp3).ToSeq();
      FirstMatchAmong(files, IsMp4);
      FirstMatchAmong(files, IsMp3);
      HeadsAmong(files, firstVid, firstAud);
      firstVid + firstAud
  }

  /** The first match, as a list, holds at most a matching path of `s`. */
  lemma FirstMatchAmong(s: seq<string>, p: string -> bool)
    ensures var m := FirstMatch(s, p).ToSeq();
      |m| <= 1 && forall i :: 0 <= i < |m| ==> m[i] in s && p(m[i])
  {
    var r := FirstMatch(s, p);
    if r.Some? {
      var i :| 0 <= i < |s| && s[i] == r.value && p(s[i]) && forall j :: 0 <= j < i ==> !p(s[j]);
      assert r.ToSeq() == [s[i]];
    }
  }

  /** At most one mp4 of `files` followed by at most one mp3 of `files`. */
  lemma HeadsAmong(files: seq<string>, v: seq<string>, a: seq<string>)
    requires |v| <= 1 && forall i :: 0 <= i < |v| ==> v[i] in files && IsMp4(v[i])
    requires |a| <= 1 && forall i :: 0 <= i < |a| ==> a[i] in files && IsMp3(a[i])
    ensures |v + a| <= 2 && AmongMp4OrMp3(v + a, files)
  {
    forall i | 0 <= i < |v + a|
      ensures (v + a)[i] in files && (IsMp4((v + a)[i]) || IsMp3((v + a)[i]))
    {
      if i < |v| { assert (v + a)[i] == v[i]; } else { assert (v + a)[i] == a[i - |v|]; }
    }
  }

  /** Every element of `r` is an mp4 or an mp3 path of `files`. */
  ghost predicate AmongMp4OrMp3(r: seq<string>, files: seq<string>) {
    forall i :: 0 <= i < |r| ==> r[i] in files && (IsMp4(r[i]) || IsMp3(r[i]))
  }

  // ---------------------------------------------------------------------
  // build_format_string
  // ---------------------------------------------------------------------

  /** The yt-dlp format selector: best audio for "audio"; otherwise the best
      video no taller than `maxHeight` merged with the best audio, falling back
      to a single file no taller than `maxHeight`, then to anything. */
  function BuildFormatString(choice: string, maxHeight: int): (r: string)
    ensures choice == "audio" ==> r == "bestaudio/best"
    ensures choice != "audio" ==> Contains(r, "bestvideo[height<=" + IntToString(maxHeight) + "]")
    ensures choice != "audio" ==> Contains(r, "/best[height<=" + IntToString(maxHeight) + "]")
    ensures choice != "audio" ==> Contains(r, "+bestaudio")
    ensures EndsWith(r, "/best")
  {
    if choice == "audio" then "bestaudio/best"
    else
      var h := IntToString(maxHeight);
      var merged := "bestvideo[height<=" + h + "]";
      var single := "/best[height<=" + h + "]";
      var r := merged + "+bestaudio" + single + "/best";
      ContainsSelf(merged);
      ContainsExtend(merged, merged, "+bestaudio");
      ContainsExtend(merged + "+bestaudio", merged, single);
      ContainsExtend(merged + "+bestaudio" + single, merged, "/best");
      ContainsAppended(merged, "+bestaudio");
      ContainsExtend(merged + "+bestaudio", "+bestaudio", single);
      ContainsExtend(merged + "+bestaudio" + single, "+bestaudio", "/best");
      ContainsAppended(merged + "+bestaudio", single);
      ContainsExtend(merged + "+bestaudio" + single, single, "/best");
      EndsWithAppend(merged + "+bestaudio" + single, "/best");
      r
  }

  /** The listing dropzone47's tests select from. */
  const SampleListing: seq<string> :=
    ["/tmp/video-abc.mp4", "/tmp/video-abc.webm", "/tmp/audio-abc.mp3", "/tmp/other.txt"]

  /** The extension of a path whose last four characters are lower-case. */
  lemma LowerTail(p: string, ext: string)
    requires |p| >= 4 && |ext| == 4 && p[|p| - 4..] == ext
    requires forall i :: 0 <= i < 4 ==> !('A' <= ext[i] <= 'Z')
    ensures Lower(p)[|p| - 4..] == ext
  {
    var l := Lower(p);
    forall i | 0 <= i < 4
      ensures l[|p| - 4 + i] == ext[i]
    {
      assert p[|p| - 4 + i] == p[|p| - 4..][i];
    }
  }

  /** The extensions of the test listing's paths. */
  lemma SampleExtensions()
    ensures IsMp4(SampleListing[0]) && !IsMp3(SampleListing[0])
    ensures !IsMp4(SampleListing[1]) && !IsMp3(SampleListing[1])
    ensures !IsMp4(SampleListing[2]) && IsMp3(SampleListing[2])
    ensures !IsMp4(SampleListing[3]) && !IsMp3(SampleListing[3])
  {
    var l := SampleListing;
    LowerTail(l[0], ".mp4");
    LowerTail(l[1], "webm");
    LowerTail(l[2], ".mp3");
    LowerTail(l[3], ".txt");
  }

  /** The filters over the test listing, one element at a time. */
  lemma SampleFilters()
    ensures Filter(SampleListing, IsMp3) == [SampleListing[2]]
    ensures Filter(SampleListing, IsMp4) == [SampleListing[0]]
  {
    SampleExtensions();
    var l := SampleListing;
    assert l[1..][1..][1..][1..] == [];
    assert Filter(l[3..], IsMp3) == [] && Filter(l[3..], IsMp4) == [];
    assert l[2..][1..] == l[3..];
    assert Filter(l[2..], IsMp3) == [l[2]] && Filter(l[2..], IsMp4) == [];
    assert l[1..][1..] == l[2..];
    assert Filter(l[1..], IsMp3) == [l[2]] && Filter(l[1..], IsMp4) == [];
  }

  /** The selector on the listing dropzone47's tests use. */
  lemma PickExamples()
    ensures PickFilesForChoice(SampleListing, "audio") == ["/tmp/audio-abc.mp3"]
    ensures PickFilesForChoice(SampleListing, "video") == ["/tmp/video-abc.mp4"]
    ensures PickFilesForChoice(SampleListing, "noop") == []
  {
    SampleFilters();
  }

  /** The format strings dropzone47's tests check. */
  lemma FormatExamples()
    ensures BuildFormatString("audio", 720) == "bestaudio/best"
    ensures Contains(BuildFormatString("video", 480), "bestvideo[height<=480]")
    ensures Contains(BuildFormatString("video", 480), "+bestaudio")
  {
    assert NatToString(4) == "4";
    assert NatToString(48) == "48";
    assert IntToString(480) == "480";
    assert "bestvideo[height<=" + IntToString(480) + "]" == "bestvideo[height<=480]";
  }

  // ---------------------------------------------------------------------
  // find_output_files: `sorted(glob(...))`
  // ---------------------------------------------------------------------

  predicate Sorted(s: seq<string>) {
    forall i, j :: 0 <= i < j < |s| ==> LexLe(s[i], s[j])
  }

  /** Puts `x` into its place in a sorted list. */
  function Insert(x: string, s: seq<string>): (r: seq<string>)
    requires Sorted(s)
    ensures Sorted(r)
    ensures multiset(r) == multiset(s) + multiset{x}
  {
    if |s| == 0 then [x]
    else if LexLe(x, s[0]) then
      SortedCons(x, s);
      [x] + s
    else
      var rest := Insert(x, s[1..]);
      assert s == [s[0]] + s[1..];
      LexLeTotal(x, s[0]);
      SortedConsBelowAll(s[0], rest);
      [s[0]] + rest
  }

  lemma SortedCons(x: string, s: seq<string>)
    requires Sorted(s) && |s| > 0 && LexLe(x, s[0])
    ensures Sorted([x] + s)
  {
    forall j | 0 <= j < |s| ensures LexLe(x, s[j]) {
      if j > 0 { LexLeTransitive(x, s[0], s[j]); }
    }
  }

  lemma SortedConsBelowAll(y: string, r: seq<string>)
    requires Sorted(r) && forall z :: z in multiset(r) ==> LexLe(y, z)
    ensures Sorted([y] + r)
  {
    forall j | 0 <= j < |r| ensures LexLe(y, r[j]) {
      assert r[j] in multiset(r);
    }
  }

  /** The glob listing (in filesystem order) sorted by Python's string order. */
  function FindOutputFiles(listing: seq<string>): (r: seq<string>)
    ensures Sorted(r)
    ensures multiset(r) == multiset(listing)
  {
    if |listing| == 0 then []
    else
      assert listing == [listing[0]] + listing[1..];
      Insert(listing[0], FindOutputFiles(listing[1..]))
  }

  /** Deleting elements from a sorted list leaves it sorted, so a selection
      from the sorted listing comes out sorted. */
  lemma {:induction false} SubseqSorted(a: seq<string>, b: seq<string>)
    requires IsSubseq(a, b) && Sorted(b)
    ensures Sorted(a)
    decreases |b|
  {
    if |a| > 0 {
      assert Sorted(b[1..]);
      if a[0] == b[0] && IsSubseq(a[1..], b[1..]) {
        SubseqSorted(a[1..], b[1..]);
        forall j | 1 <= j < |a|
          ensures LexLe(a[0], a[j])
        {
          assert a[j] == a[1..][j - 1];
          SubseqMembers(a[1..], b[1..], a[j]);
          var k :| 0 <= k < |b[1..]| && b[1..][k] == a[j];
          assert b[k + 1] == a[j];
        }
      } else {
        SubseqSorted(a, b[1..]);
      }
    }
  }

  /** Two listings of the same files agree on whether an mp4 is among them. */
  lemma HasMp4SameFiles(a: seq<string>, b: seq<string>)
    requires multiset(a) == multiset(b)
    ensures HasMp4(a) <==> HasMp4(b)
  {
    if HasMp4(a) {
      var i :| 0 <= i < |a| && IsMp4(a[i]);
      assert a[i] in multiset(b);
      var j :| 0 <= j < |b| && b[j] == a[i];
    }
    if HasMp4(b) {
      var i :| 0 <= i < |b| && IsMp4(b[i]);
      assert b[i] in multiset(a);
      var j :| 0 <= j < |a| && a[j] == b[i];
    }
  }

  /** Two sorted arrangements of one multiset start with the same element. */
  lemma SortedHeadsEqual(a: seq<string>, b: seq<string>)
    requires Sorted(a) && Sorted(b) && multiset(a) == multiset(b) && |a| > 0 && |b| > 0
    ensures a[0] == b[0]
  {
    assert a[0] in multiset(b);
    var j :| 0 <= j < |b| && b[j] == a[0];
    assert LexLe(b[0], a[0]) by {
      if j == 0 { LexLeTotal(b[0], a[0]); }
    }
    assert b[0] in multiset(a);
    var k :| 0 <= k < |a| && a[k] == b[0];
    assert LexLe(a[0], b[0]) by {
      if k == 0 { LexLeTotal(a[0], b[0]); }
    }
    LexLeAntisymmetric(a[0], b[0]);
  }

  /** A sorted arrangement of a multiset is unique. */
  lemma {:induction false} SortedUnique(a: seq<string>, b: seq<string>)
    requires Sorted(a) && Sorted(b) && multiset(a) == multiset(b)
    ensures a == b
    decreases |a|
  {
    assert |a| == |multiset(a)| == |multiset(b)| == |b|;
    if |a| > 0 {
      SortedHeadsEqual(a, b);
      assert a == [a[0]] + a[1..];
      assert b == [b[0]] + b[1..];
      assert multiset(a) == multiset{a[0]} + multiset(a[1..]);
      assert multiset(b) == multiset{b[0]} + multiset(b[1..]);
      assert multiset(a[1..]) == multiset(a) - multiset{a[0]};
      assert multiset(b[1..]) == multiset(b) - multiset{b[0]};
      SortedUnique(a[1..], b[1..]);
    }
  }

  /** The listing order the filesystem happens to produce does not matter. */
  lemma FindOutputFilesDeterministic(l1: seq<string>, l2: seq<string>)
    requires multiset(l1) == multiset(l2)
    ensures FindOutputFiles(l1) == FindOutputFiles(l2)
  {
    SortedUnique(FindOutputFiles(l1), FindOutputFiles(l2));
  }
}

=== FILE: settings.dfy ===
/** The environment-sourced configuration of dropzone47/config.py, read
    once at import time and constant afterwards. */
module Settings {

  /** TELEGRAM_MAX_MB, MAX_HEIGHT, AUDIO_KBITRATE and CLEANUP_AFTER_SEND. */
  datatype Config = Config(
    telegramMaxMb: int,
    maxHeight: int,
    audioKbitrate: int,
    cleanupAfterSend: bool)

  /** The defaults used when the environment sets nothing. */
  const DefaultConfig := Config(1900, 720, 128, true)

  /** Free space (MB) demanded before any fetch: `max(TELEGRAM_MAX_MB * 2, 2000)`. */
  function MinFreeMb(c: Config): (r: int)
    ensures r >= 2000 && r >= 2 * c.telegramMaxMb
    ensures r == 2000 || r == 2 * c.telegramMaxMb
  {
    if c.telegramMaxMb * 2 >= 2000 then c.telegramMaxMb * 2 else 2000
  }

  /** Height cap of the reduced-quality video retry: `min(480, MAX_HEIGHT)`. */
  function RetryHeight(c: Config): (r: int)
    ensures r <= 480 && r <= c.maxHeight
    ensures r == 480 || r == c.maxHeight
  {
    if c.maxHeight <= 480 then c.maxHeight else 480
  }

  /** Bytes in one megabyte, as the size and space checks count them. */
  const Mebibyte := 1024 * 1024
}

=== FILE: storage.dfy ===
/** The download directory as the bot sees it: the listing that
    `find_output_files(video_id)` globs for one content id, `safe_cleanup`
    from dropzone47/download.py, and the removal loop of
    `cmd_clear_downloads` in dropzone47/bot.py. `os.remove` is an oracle:
    `removeFails` is the set of paths whose removal raises. */
module Storage {
  import opened Selection

  /** The files of one content id in the download directory, in directory order. */
  type Disk = seq<string>

  /** A directory lists each path at most once. */
  ghost predicate NoDup(d: seq<string>) {
    forall x :: multiset(d)[x] <= 1
  }

  /** Two duplicate-free sequences with no path in common concatenate to a
      duplicate-free one. */
  lemma NoDupAppend(a: seq<string>, b: seq<string>)
    requires NoDup(a) && NoDup(b)
    requires forall x :: x in a ==> x !in b
    ensures NoDup(a + b)
  {
    forall x
      ensures multiset(a + b)[x] <= 1
    {
      assert multiset(a + b) == multiset(a) + multiset(b);
      if x in a {
        assert x !in multiset(b);
      }
    }
  }

  /** The files an engine run leaves behind, added to the directory: a path
      it writes again is still listed once. */
  function AddFiles(disk: Disk, produced: seq<string>): (r: Disk)
    ensures disk <= r
    ensures forall p :: p in r <==> p in disk || p in produced
    ensures NoDup(disk) ==> NoDup(r)
    decreases |produced|
  {
    if |produced| == 0 then disk
    else
      var p := produced[0];
      var next := if p in disk then disk else disk + [p];
      assert NoDup(disk) ==> NoDup(next) by {
        if NoDup(disk) && p !in disk {
          NoDupAppend(disk, [p]);
        }
      }
      assert forall q :: q in produced <==> q == p || q in produced[1..] by {
        assert produced == [p] + produced[1..];
      }
      AddFiles(next, produced[1..])
  }

  /** The paths whose removal raises. */
  function Failing(removeFails: set<string>): string -> bool {
    p => p in removeFails
  }

  /** The paths that survive an attempt to remove `files`: those not
      targeted, and those whose removal raised (the exception is swallowed). */
  function Survives(files: seq<string>, removeFails: set<string>): string -> bool {
    p => p !in files || p in removeFails
  }

  /** Removes each path of `files` from the disk, swallowing failures. */
  function RemoveAll(disk: Disk, files: seq<string>, removeFails: set<string>): (r: Disk)
    ensures SelectsExactly(r, disk, Survives(files, removeFails))
    ensures forall p :: p in files && p !in removeFails ==> p !in r
    ensures forall i :: 0 <= i < |disk| && (disk[i] !in files || disk[i] in removeFails) ==> disk[i] in r
    ensures forall p :: p in disk && p !in files ==> p in r
    ensures forall p :: p in disk && (p !in files || p in removeFails) ==> p in r
    ensures NoDup(disk) ==> NoDup(r)
  {
    var r := Filter(disk, Survives(files, removeFails));
    assert forall i :: 0 <= i < |disk| ==> multiset(disk)[disk[i]] > 0;
    assert forall p :: p in disk ==> multiset(disk)[p] > 0;
    r
  }

  /** `safe_cleanup(files)`: nothing at all unless cleanup is enabled. */
  function SafeCleanup(cleanup: bool, disk: Disk, files: seq<string>, removeFails: set<string>): (r: Disk)
    ensures !cleanup ==> r == disk
    ensures cleanup ==> r == RemoveAll(disk, files, removeFails)
    ensures forall p :: p in disk && p !in files ==> p in r
    ensures forall p :: p in disk && (p !in files || p in removeFails) ==> p in r
    ensures NoDup(disk) ==> NoDup(r)
  {
    if cleanup then RemoveAll(disk, files, removeFails) else disk
  }

  /** A safe cleanup never adds a file, whatever the flag says. */
  lemma SafeCleanupShrinks(cleanup: bool, disk: Disk, files: seq<string>, removeFails: set<string>)
    ensures multiset(SafeCleanup(cleanup, disk, files, removeFails)) <= multiset(disk)
  {
    var r := SafeCleanup(cleanup, disk, files, removeFails);
    if cleanup {
      assert forall x :: multiset(r)[x] <= multiset(disk)[x];
    }
  }

  /** One unfolding of the filter at the front. */
  lemma FilterCons(s: seq<string>, p: string -> bool)
    requires |s| > 0
    ensures Filter(s, p) == (if p(s[0]) then [s[0]] else []) + Filter(s[1..], p)
  {
  }

  lemma AppendAssoc(a: seq<string>, b: seq<string>, c: seq<string>)
    ensures a + (b + c) == (a + b) + c
  {
  }

  /** Filtering commutes with appending one element at the back. */
  lemma {:induction false} FilterSnoc(s: seq<string>, x: string, p: string -> bool)
    ensures Filter(s + [x], p) == Filter(s, p) + (if p(x) then [x] else [])
    decreases |s|
  {
    var last: seq<string> := if p(x) then [x] else [];
    if |s| == 0 {
      assert s + [x] == [x];
      FilterCons([x], p);
      assert [x][1..] == [];
    } else {
      var t := s + [x];
      var head: seq<string> := if p(s[0]) then [s[0]] else [];
      assert t[0] == s[0];
      assert t[1..] == s[1..] + [x];
      FilterSnoc(s[1..], x, p);
      FilterCons(t, p);
      FilterCons(s, p);
      AppendAssoc(head, Filter(s[1..], p), last);
    }
  }

  /** One more element of a prefix, filtered. */
  lemma FilterPrefixStep(s: seq<string>, i: nat, p: string -> bool)
    requires i < |s|
    ensures Filter(s[..i + 1], p) == Filter(s[..i], p) + (if p(s[i]) then [s[i]] else [])
  {
    assert s[..i + 1] == s[..i] + [s[i]];
    FilterSnoc(s[..i], s[i], p);
  }

  /** The loop `for p in find_output_files(vid): os.remove(p); removed += 1`
      with failures swallowed: how many were removed and what is left. */
  method RemoveCounting(found: seq<string>, removeFails: set<string>) returns (removed: nat, left: Disk)
    ensures left == Filter(found, Failing(removeFails))
    ensures removed + |left| == |found|
  {
    removed := 0;
    left := [];
    var i := 0;
    while i < |found|
      invariant 0 <= i <= |found|
      invariant left == Filter(found[..i], Failing(removeFails))
      invariant removed + |left| == i
    {
      FilterPrefixStep(found, i, Failing(removeFails));
      if found[i] in removeFails {
        left := left + [found[i]];
      } else {
        removed := removed + 1;
      }
      i := i + 1;
    }
    assert found[..i] == found;
  }
}

=== FILE: text.dfy ===
/** String helpers shared by the selectors, the format string and the
    duration formatter: ASCII lower-casing, suffix and infix tests, decimal
    rendering of integers (Python's `str(int)` / `f"{n}"`) with its parser,
    and the code-point lexicographic order Python uses to compare strings. */
module Text {
  import opened Wrappers

  // ---------------------------------------------------------------------
  // Case and suffixes
  // ---------------------------------------------------------------------

  /** `c.lower()` restricted to ASCII letters. */
  function LowerChar(c: char): char {
    if 'A' <= c <= 'Z' then (c as int + 32) as char else c
  }

  /** `s.lower()` restricted to ASCII letters: same length, each character lowered. */
  function Lower(s: string): (r: string)
    ensures |r| == |s|
    ensures forall i :: 0 <= i < |s| ==> r[i] == LowerChar(s[i])
  {
    seq(|s|, i requires 0 <= i < |s| => LowerChar(s[i]))
  }

  /** `s.endswith(suffix)`. */
  predicate EndsWith(s: string, suffix: string) {
    |suffix| <= |s| && s[|s| - |suffix|..] == suffix
  }

  /** `s.endswith((a, b, ...))`: some suffix of the tuple matches. */
  predicate EndsWithAny(s: string, suffixes: seq<string>) {
    exists k :: 0 <= k < |suffixes| && EndsWith(s, suffixes[k])
  }

  /** Two suffixes of one string are nested: the shorter ends the longer.
      Hence suffixes that are not nested can never both match. */
  lemma EndsWithBoth(s: string, a: string, b: string)
    requires EndsWith(s, a) && EndsWith(s, b) && |a| <= |b|
    ensures EndsWith(b, a)
  {
    var k := |b| - |a|;
    forall i | 0 <= i < |a|
      ensures b[k + i] == a[i]
    {
      assert b[k + i] == s[|s| - |b| + k + i];
      assert a[i] == s[|s| - |a| + i];
    }
    assert b[k..] == a;
  }

  // ---------------------------------------------------------------------
  // Infixes
  // ---------------------------------------------------------------------

  /** `t` occurs in `s` starting at index `i`. */
  predicate OccursAt(s: string, t: string, i: int) {
    0 <= i && i + |t| <= |s| && s[i..i + |t|] == t
  }

  /** Python's `t in s` for strings. */
  predicate Contains(s: string, t: string) {
    exists i :: 0 <= i <= |s| && OccursAt(s, t, i)
  }

  /** A string placed between two others occurs in their concatenation. */
  lemma ContainsMiddle(a: string, t: string, b: string)
    ensures OccursAt(a + t + b, t, |a|)
    ensures Contains(a + t + b, t)
  {
    var s := a + t + b;
    assert s[|a|..|a| + |t|] == t;
    assert OccursAt(s, t, |a|);
  }

  /** A string is a suffix of what it is appended to. */
  lemma EndsWithAppend(a: string, t: string)
    ensures EndsWith(a + t, t)
  {
    assert (a + t)[|a|..] == t;
  }

  lemma ContainsSelf(t: string)
    ensures Contains(t, t)
  {
    assert t[0..|t|] == t;
    assert OccursAt(t, t, 0);
  }

  lemma ContainsAppended(a: string, t: string)
    ensures Contains(a + t, t)
  {
    assert (a + t)[|a|..|a| + |t|] == t;
    assert OccursAt(a + t, t, |a|);
  }

  /** An occurrence survives appending more text. */
  lemma ContainsExtend(s: string, t: string, b: string)
    requires Contains(s, t)
    ensures Contains(s + b, t)
  {
    var i :| 0 <= i <= |s| && OccursAt(s, t, i);
    assert (s + b)[i..i + |t|] == s[i..i + |t|];
    assert OccursAt(s + b, t, i);
  }

  // ---------------------------------------------------------------------
  // Decimal numbers
  // ---------------------------------------------------------------------

  predicate IsDigit(c: char) {
    '0' <= c <= '9'
  }

  predicate AllDigits(s: string) {
    forall i :: 0 <= i < |s| ==> IsDigit(s[i])
  }

  function DigitChar(d: nat): (c: char)
    requires d < 10
    ensures IsDigit(c)
  {
    (48 + d) as char
  }

  function DigitValue(c: char): (d: nat)
    requires IsDigit(c)
    ensures d < 10
  {
    c as int - 48
  }

  /** The decimal digits of `n` with no leading zero (`str(n)` for n >= 0). */
  function NatToString(n: nat): (r: string)
    ensures 1 <= |r| && AllDigits(r)
    ensures |r| == 1 <==> n < 10
    ensures |r| == 2 <==> 10 <= n < 100
    ensures |r| > 1 ==> r[0] != '0'
    decreases n
  {
    if n < 10 then [DigitChar(n)] else NatToString(n / 10) + [DigitChar(n % 10)]
  }

  /** The value of a string of decimal digits (leading zeros allowed). */
  function ParseNat(s: string): (n: nat)
    requires AllDigits(s)
    decreases |s|
  {
    if |s| == 0 then 0 else ParseNat(s[..|s| - 1]) * 10 + DigitValue(s[|s| - 1])
  }

  /** Rendering a natural number and reading it back gives the number. */
  lemma {:induction false} ParseNatToString(n: nat)
    ensures ParseNat(NatToString(n)) == n
    decreases n
  {
    var r := NatToString(n);
    if n >= 10 {
      var front := NatToString(n / 10);
      assert r == front + [DigitChar(n % 10)];
      assert r[..|r| - 1] == front;
      ParseNatToString(n / 10);
    }
  }

  /** A digit's value renders back to the digit. */
  lemma DigitRoundTrip(c: char)
    requires IsDigit(c)
    ensures DigitChar(DigitValue(c)) == c
  {
  }

  /** A digit string with no superfluous leading zero is the rendering of
      its value: `str(int(s)) == s`. */
  lemma {:induction false} NatToStringParse(s: string)
    requires AllDigits(s) && |s| >= 1 && (|s| == 1 || s[0] != '0')
    ensures NatToString(ParseNat(s)) == s
    decreases |s|
  {
    var front := s[..|s| - 1];
    var c := s[|s| - 1];
    DigitRoundTrip(c);
    if |s| == 1 {
      assert front == [];
      assert s == [c];
    } else {
      assert AllDigits(front);
      NatToStringParse(front);
      var f := ParseNat(front);
      assert NatToString(0) == "0";
      assert front[0] == s[0];
      assert f != 0;
      var n := ParseNat(s);
      assert n == f * 10 + DigitValue(c);
      assert n / 10 == f && n % 10 == DigitValue(c);
      assert NatToString(n) == NatToString(f) + [DigitChar(DigitValue(c))];
      assert s == front + [c];
    }
  }

  /** A leading zero does not change the value read. */
  lemma ParseNatLeadingZero(s: string)
    requires AllDigits(s) && |s| == 1
    ensures AllDigits("0" + s) && ParseNat("0" + s) == ParseNat(s)
  {
    var z := "0" + s;
    assert z[..1] == "0";
  }

  /** `str(i)` for any integer: a minus sign before the digits of `|i|`. */
  function IntToString(i: int): (r: string)
    ensures 1 <= |r|
    ensures r[0] == '-' <==> i < 0
  {
    if i < 0 then "-" + NatToString(-i) else NatToString(i)
  }

  /** Python's `int(s)` on an optional minus sign followed by digits. */
  function ParseInt(s: string): (r: Option<int>)
    ensures r.Some? && |s| > 0 && s[0] == '-' ==> r.value <= 0
  {
    if |s| > 1 && s[0] == '-' && AllDigits(s[1..]) then Some(0 - ParseNat(s[1..]))
    else if |s| > 0 && AllDigits(s) then Some(ParseNat(s))
    else None
  }

  /** Rendering an integer and reading it back gives the integer. */
  lemma IntToStringRoundTrip(i: int)
    ensures ParseInt(IntToString(i)) == Some(i)
  {
    var r := IntToString(i);
    if i < 0 {
      assert r[1..] == NatToString(-i);
      ParseNatToString(-i);
    } else {
      ParseNatToString(i);
    }
  }

  // ---------------------------------------------------------------------
  // Code-point lexicographic order (Python's `<=` on str)
  // ---------------------------------------------------------------------

  predicate LexLe(a: string, b: string)
    decreases |a|
  {
    |a| == 0 || (|b| > 0 && (a[0] < b[0] || (a[0] == b[0] && LexLe(a[1..], b[1..]))))
  }

  lemma {:induction false} LexLeTotal(a: string, b: string)
    ensures LexLe(a, b) || LexLe(b, a)
    decreases |a|
  {
    if |a| > 0 && |b| > 0 && a[0] == b[0] {
      LexLeTotal(a[1..], b[1..]);
    }
  }

  lemma {:induction false} LexLeAntisymmetric(a: string, b: string)
    requires LexLe(a, b) && LexLe(b, a)
    ensures a == b
    decreases |a|
  {
    if |a| > 0 {
      LexLeAntisymmetric(a[1..], b[1..]);
      assert a == [a[0]] + a[1..];
      assert b == [b[0]] + b[1..];
    }
  }

  lemma {:induction false} LexLeTransitive(a: string, b: string, c: string)
    requires LexLe(a, b) && LexLe(b, c)
    ensures LexLe(a, c)
    decreases |a|
  {
    if |a| > 0 && a[0] == b[0] && b[0] == c[0] {
      LexLeTransitive(a[1..], b[1..], c[1..]);
    }
  }
}

=== FILE: utils.dfy ===
/** dropzone47/utils.py (and the copies in main.py): the duration formatter
    shown next to a title, and the free-space threshold test. */
module Utils {
  import opened Wrappers
  import opened Text
  import opened Settings

  // ---------------------------------------------------------------------
  // humanize_duration
  // ---------------------------------------------------------------------

  /** Python's `f"{i:02d}"`: zero-padded to two characters; a negative number
      keeps its sign and is already two characters wide. */
  function Pad2(i: int): (r: string)
    ensures 0 <= i < 100 ==> |r| == 2 && AllDigits(r)
    ensures |r| >= 2
    ensures i >= 0 ==> AllDigits(r)
    ensures i < 0 ==> r[0] == '-'
    // the digits read back as the magnitude, padded with one zero below ten
    ensures i >= 0 ==> ParseNat(r) == i
    ensures i < 0 ==> AllDigits(r[1..]) && ParseNat(r[1..]) == -i
    ensures 0 <= i < 10 <==> |r| == 2 && r[0] == '0'
  {
    if i < 0 then
      ParseNatToString(-i);
      assert ("-" + NatToString(-i))[1..] == NatToString(-i);
      "-" + NatToString(-i)
    else if i < 10 then
      ParseNatToString(i);
      ParseNatLeadingZero(NatToString(i));
      "0" + NatToString(i)
    else
      ParseNatToString(i);
      NatToString(i)
  }

  /** Pad2 of a natural number reads back as that number. */
  lemma Pad2RoundTrip(n: nat)
    ensures AllDigits(Pad2(n)) && ParseNat(Pad2(n)) == n
  {
    ParseNatToString(n);
    if n < 10 {
      ParseNatLeadingZero(NatToString(n));
    }
  }

  /** The shared formatter; `unknown` is what the caller shows for `None`. */
  function HumanizeDurationWith(unknown: string, seconds: Option<int>): (r: string)
  {
    match seconds
    case None => unknown
    case Some(s) =>
      // divmod by a positive divisor floors, as Dafny's / and % do
      var h := s / 3600;
      var rem := s % 3600;
      var m := rem / 60;
      var sec := rem % 60;
      if h != 0 then Pad2(h) + ":" + Pad2(m) + ":" + Pad2(sec)
      else Pad2(m) + ":" + Pad2(sec)
  }

  /** `humanize_duration` of dropzone47/utils.py: "unknown" for a missing duration,
      "MM:SS" below an hour, "HH:MM:SS" from an hour on. */
  function HumanizeDuration(seconds: Option<int>): (r: string)
    ensures seconds.None? ==> r == "unknown"
    ensures seconds.Some? ==> |r| >= 5
    ensures seconds.Some? && 0 <= seconds.value < 3600 ==> |r| == 5 && r[2] == ':'
    ensures seconds.Some? && seconds.value >= 3600 ==> |r| >= 8 && r[|r| - 3] == ':' && r[|r| - 6] == ':'
    ensures seconds.Some? && seconds.value < 0 ==> r[0] == '-'
  {
    HumanizeDurationWith("unknown", seconds)
  }

  /** main.py's copy: identical except that a missing duration reads "desconocida". */
  function LegacyHumanizeDuration(seconds: Option<int>): (r: string)
    ensures seconds.None? ==> r == "desconocida"
    ensures seconds.Some? ==> r == HumanizeDuration(seconds)
  {
    HumanizeDurationWith("desconocida", seconds)
  }

  /** A two-digit minute or second field: "00" to "59". */
  predicate SexagesimalField(f: string) {
    |f| == 2 && AllDigits(f) && ParseNat(f) < 60
  }

  /** An hour field as `f"{h:02d}"` writes a positive hour: two digits, or
      more with no leading zero. */
  predicate HourField(f: string) {
    |f| >= 2 && AllDigits(f) && (|f| == 2 || f[0] != '0') && ParseNat(f) >= 1
  }

  /** Reads a clock string back into seconds: "MM:SS", or "H...H:MM:SS" with
      a positive hour. Fields out of range are rejected. */
  function ParseClock(t: string): (r: Option<int>)
    ensures r.Some? ==> r.value >= 0
  {
    if |t| == 5 && t[2] == ':' && SexagesimalField(t[..2]) && SexagesimalField(t[3..]) then
      Some(ParseNat(t[..2]) * 60 + ParseNat(t[3..]))
    else if |t| >= 8 && t[|t| - 3] == ':' && t[|t| - 6] == ':'
         && HourField(t[..|t| - 6]) && SexagesimalField(t[|t| - 5..|t| - 3]) && SexagesimalField(t[|t| - 2..]) then
      Some(ParseNat(t[..|t| - 6]) * 3600 + ParseNat(t[|t| - 5..|t| - 3]) * 60 + ParseNat(t[|t| - 2..]))
    else None
  }

  /** Reading "MM:SS" back. */
  lemma {:induction false} ParseClockShort(mm: string, ss: string)
    requires SexagesimalField(mm) && SexagesimalField(ss)
    ensures ParseClock(mm + ":" + ss) == Some(ParseNat(mm) * 60 + ParseNat(ss))
  {
    var t := mm + ":" + ss;
    assert t[..2] == mm;
    assert t[3..] == ss;
  }

  /** Reading "H...H:MM:SS" back. */
  lemma {:induction false} ParseClockLong(hh: string, mm: string, ss: string)
    requires HourField(hh) && SexagesimalField(mm) && SexagesimalField(ss)
    ensures ParseClock(hh + ":" + mm + ":" + ss)
         == Some(ParseNat(hh) * 3600 + ParseNat(mm) * 60 + ParseNat(ss))
  {
    var tail := ":" + mm + ":" + ss;
    assert |tail| == 6 && tail[0] == ':' && tail[3] == ':';
    assert tail[1..3] == mm && tail[4..] == ss;
    var t := hh + tail;
    assert hh + ":" + mm + ":" + ss == t;
    assert t[..|t| - 6] == hh;
    assert t[|t| - 6..] == tail;
    assert t[|t| - 5..|t| - 3] == tail[1..3];
    assert t[|t| - 2..] == tail[4..];
  }

  /** `f"{m:02d}"` of a minute or second count is a field that reads back. */
  lemma Pad2Field(n: nat)
    requires n < 60
    ensures SexagesimalField(Pad2(n)) && ParseNat(Pad2(n)) == n
  {
    Pad2RoundTrip(n);
  }

  /** `f"{h:02d}"` of a positive hour is an hour field that reads back. */
  lemma Pad2Hour(h: nat)
    requires h >= 1
    ensures HourField(Pad2(h)) && ParseNat(Pad2(h)) == h
  {
    Pad2RoundTrip(h);
  }

  /** A field of exactly two digits is `f"{n:02d}"` of its value. */
  lemma {:induction false} Pad2Parse(f: string)
    requires |f| == 2 && AllDigits(f)
    ensures Pad2(ParseNat(f)) == f
  {
    var n := ParseNat(f);
    var d0 := DigitValue(f[0]);
    var d1 := DigitValue(f[1]);
    var head := f[..1];
    assert head[..0] == [] && head[0] == f[0];
    assert ParseNat(head) == d0;
    assert f[..|f| - 1] == head;
    assert n == d0 * 10 + d1;
    if d0 == 0 {
      assert n < 10;
      DigitRoundTrip(f[1]);
      assert NatToString(n) == [f[1]];
      assert f == "0" + [f[1]];
    } else {
      assert f[0] != '0';
      NatToStringParse(f);
    }
  }

  /** An hour field is `f"{h:02d}"` of its value. */
  lemma HourFieldPad(f: string)
    requires HourField(f)
    ensures Pad2(ParseNat(f)) == f
  {
    if |f| == 2 {
      Pad2Parse(f);
    } else {
      NatToStringParse(f);
      assert ParseNat(f) >= 10;
    }
  }

  /** The clock built from hour, minute and second fields reads back to
      their total. */
  lemma ClockFieldsRoundTrip(h: nat, m: nat, sec: nat)
    requires m < 60 && sec < 60
    ensures ParseClock(if h != 0 then Pad2(h) + ":" + Pad2(m) + ":" + Pad2(sec) else Pad2(m) + ":" + Pad2(sec))
         == Some(h * 3600 + m * 60 + sec)
  {
    Pad2Field(m);
    Pad2Field(sec);
    if h != 0 {
      Pad2Hour(h);
      ParseClockLong(Pad2(h), Pad2(m), Pad2(sec));
    } else {
      ParseClockShort(Pad2(m), Pad2(sec));
    }
  }

  /** The formatter loses nothing: for every non-negative duration the hours,
      minutes and seconds fields read back to the original number of seconds
      (so the hour field is never truncated). */
  lemma HumanizeDurationRoundTrip(s: nat)
    ensures ParseClock(HumanizeDuration(Some(s))) == Some(s)
  {
    var h := s / 3600;
    var rem := s % 3600;
    var m := rem / 60;
    var sec := rem % 60;
    assert s == h * 3600 + rem;
    assert rem == m * 60 + sec;
    assert HumanizeDuration(Some(s))
        == if h != 0 then Pad2(h) + ":" + Pad2(m) + ":" + Pad2(sec) else Pad2(m) + ":" + Pad2(sec);
    ClockFieldsRoundTrip(h, m, sec);
  }

  /** A "MM:SS" clock is what the formatter writes for its value. */
  lemma {:induction false} ShortClockCanonical(t: string)
    requires |t| == 5 && t[2] == ':' && SexagesimalField(t[..2]) && SexagesimalField(t[3..])
    ensures HumanizeDuration(ParseClock(t)) == t
  {
    var m := ParseNat(t[..2]);
    var sec := ParseNat(t[3..]);
    var n := m * 60 + sec;
    assert ParseClock(t) == Some(n);
    assert n / 3600 == 0 && n % 3600 == n;
    assert n / 60 == m && n % 60 == sec;
    Pad2Parse(t[..2]);
    Pad2Parse(t[3..]);
    assert t == t[..2] + ":" + t[3..];
  }

  /** An "H...H:MM:SS" clock is what the formatter writes for its value. */
  lemma {:induction false} LongClockCanonical(t: string)
    requires |t| >= 8 && t[|t| - 3] == ':' && t[|t| - 6] == ':'
    requires HourField(t[..|t| - 6]) && SexagesimalField(t[|t| - 5..|t| - 3]) && SexagesimalField(t[|t| - 2..])
    ensures HumanizeDuration(ParseClock(t)) == t
  {
    var hh, mm, ss := t[..|t| - 6], t[|t| - 5..|t| - 3], t[|t| - 2..];
    var h, m, sec := ParseNat(hh), ParseNat(mm), ParseNat(ss);
    var n := h * 3600 + m * 60 + sec;
    assert !(|t| == 5);
    assert ParseClock(t) == Some(n);
    var rem := m * 60 + sec;
    assert 0 <= rem < 3600;
    assert n / 3600 == h && n % 3600 == rem;
    assert rem / 60 == m && rem % 60 == sec;
    HourFieldPad(hh);
    Pad2Parse(mm);
    Pad2Parse(ss);
    assert t == hh + ":" + mm + ":" + ss;
  }

  /** The formatter's clock is the only clock for a duration: a string reads
      as `n` seconds exactly when it is what `humanize_duration(n)` writes.
      Together with the round trip this fixes every field of the text. */
  lemma HumanizeDurationCanonical(t: string, n: nat)
    ensures ParseClock(t) == Some(n) <==> t == HumanizeDuration(Some(n))
  {
    HumanizeDurationRoundTrip(n);
    if ParseClock(t) == Some(n) {
      if |t| == 5 && t[2] == ':' && SexagesimalField(t[..2]) && SexagesimalField(t[3..]) {
        ShortClockCanonical(t);
      } else {
        LongClockCanonical(t);
      }
    }
  }

  /** The cases dropzone47's tests fix. */
  lemma HumanizeDurationExamples()
    ensures HumanizeDuration(None) == "unknown"
    ensures HumanizeDuration(Some(65)) == "01:05"
    ensures HumanizeDuration(Some(3605)) == "01:00:05"
    ensures LegacyHumanizeDuration(None) == "desconocida"
  {
    assert NatToString(1) == "1";
    assert NatToString(5) == "5";
    assert NatToString(0) == "0";
  }

  // ---------------------------------------------------------------------
  // has_enough_space
  // ---------------------------------------------------------------------

  /** What `shutil.disk_usage(DOWNLOAD_DIR)` produced. */
  datatype DiskProbe =
    | Usage(free: int)       // free bytes
    | DirMissing             // FileNotFoundError
    | ProbeFailed            // any other OSError: not caught here

  /** `has_enough_space(min_free_mb)`: `Some(ok)` when the probe answered or the
      directory is missing, `None` when the probe raised something else. */
  function HasEnoughSpace(probe: DiskProbe, minFreeMb: int): (r: Option<bool>)
    ensures r.None? <==> probe.ProbeFailed?
    ensures probe.DirMissing? ==> r == Some(true)
    ensures probe.Usage? ==> (r == Some(true) <==> probe.free >= minFreeMb * Mebibyte)
  {
    match probe
    case Usage(free) => Some(free >= minFreeMb * 1024 * 1024)
    case DirMissing => Some(true)
    case ProbeFailed => None
  }

  /** Demanding less space never turns an acceptance into a refusal. */
  lemma HasEnoughSpaceMonotone(probe: DiskProbe, lower: int, higher: int)
    requires lower <= higher && HasEnoughSpace(probe, higher) == Some(true)
    ensures HasEnoughSpace(probe, lower) == Some(true)
  {
  }
}

=== FILE: wrappers.dfy ===
/** Small failure-compatible wrapper used across the model: Python's
    `None` / "value or nothing" results become `Option`. */
module Wrappers {

  datatype Option<+T> = None | Some(value: T) {

    /** The wrapped value, or `default` when there is none. */
    function GetOr(default: T): T {
      match this
      case Some(v) => v
      case None => default
    }

    /** The wrapped value as a sequence of length at most one. */
    function ToSeq(): seq<T> {
      match this
      case Some(v) => [v]
      case None => []
    }
  }
}
